=== FILE: README.md ===
# sqlite-mcp-server, modelled in Dafny

This project models the request-handling core of `sqlite-mcp-server`. That server exposes one SQLite
database to Model Context Protocol clients over JSON-RPC 2.0. The model covers:

- the JSON-RPC envelope: `create_json_rpc_response` and `create_json_rpc_error`;
- the server state machine: the `initialized` flag, the three request counters, the methods
  `initialize`, `tools/list` and `tools/call`, and the mapping of exceptions to error objects;
- the tool dispatcher `execute_tool`, with its success and error content envelope;
- the ten tools (`connect_database`, `query`, `get_tables`, `get_schema`, `create`, `read`,
  `update`, `delete`, `analyze_table`, `search_data`): their argument checks, the SQL text and bind
  lists they build, their row truncation, their error classification and their failure messages;
- the database manager: `set_database`, the path precedence of `get_connection`, and the
  `validate_sql_query` blacklist;
- the plain records `MCPError`, `ServerConfig`, `ServerStats` and `ServerCapabilities`.

Everything is a pure function over immutable datatypes:

| file | module | contents |
|---|---|---|
| `basics.dfy` | `Basics` | `Option`, `Result`, `Min`, `Max` |
| `json.dfy` | `Json` | JSON values, ordered dictionaries, Python truthiness |
| `text.dfy` | `Text` | `str.upper/lower/strip`, substring search, `?` counting, `join`/`split`, decimal integers |
| `models.dfy` | `Models` | exceptions, configuration, statistics, capabilities |
| `jsonrpc.dfy` | `JsonRpc` | responses and error objects |
| `database.dfy` | `Database` | the database manager and the SQL blacklist |
| `statements.dfy` | `Statements` | the SQL text and bind lists of the CRUD and search tools |
| `tools.dfy` | `Tools` | the ten tools |
| `dispatcher.dfy` | `Dispatcher` | the tool catalogue and `execute_tool` |
| `server.dfy` | `Server` | `SQLiteMCPServer` |

The SQLite engine and the filesystem are parameters, not code. An `Engine` value holds:

- the filesystem checks (`Path.resolve`, `exists`, `os.access`);
- whether a connection opens;
- the cursor a statement produces, or the exception it raises;
- the table names of `sqlite_master`;
- the `PRAGMA table_info` columns;
- the row mappings of `get_tables`, `get_schema` and `analyze_table`.

Every tool returns three things: the database manager afterwards, its result or exception, and a
trace of the database accesses it made (`Open`, `Execute`, `Commit`, `Describe`). So "fails before
touching the database" is an empty trace, and "commits" is `Commit in trace`.

Missing arguments are the falsy value of their type, because every check in the source is
`if not x`. A `params`, `clientInfo` or `arguments` value that is not a dictionary is kept by its
type name. Its `.get` raises `AttributeError`, as in Python.

Three behaviours of the code worth noting:

- An unknown tool name is not a JSON-RPC -32601 error. `execute_tool` raises it inside its own
  `try`, so it comes back as a successful `tools/call` whose result has `isError: true`.
- A query refused by the blacklist fails with code -32603, not -32602.
- `get_connection` never commits on exit. It rolls back only on an engine error. The tools commit
  explicitly.

## Model

| member | source | states |
|---|---|---|
| Models.McpErrorStoresFields | src/models.py:7-13 | An `MCPError` keeps code, message and data exactly as given, `data` defaults to None, and its text is the message |
| Models.DefaultConfig | src/models.py:18-29 | Default configuration: localhost:9999, INFO, 10 connections, 60 s, 10000 rows, no daemon, 30.0 s timeout, 10 database connections |
| Models.UpdateFromArgs | src/models.py:31-39 | The seven command-line fields are overwritten; `connection_timeout` and `max_db_connections` are kept |
| Models.UpdateFromArgsLastWins | src/models.py:31-39 | Applying two argument sets in turn is the same as applying only the second |
| Models.NewStats | src/models.py:44-48 | A fresh statistics record has all three counters at 0 |
| Models.ServerStats.ToDict | src/models.py:51-57 | The statistics dictionary holds exactly the three counters, in order, with their current values |
| Models.Capabilities | src/models.py:60-71 | The capabilities are exactly `{"tools": {"listChanged": false}}` |
| JsonRpc.CreateResponse | src/utils.py:31-43 | A response has `jsonrpc` "2.0" and the caller's id; it carries `error` exactly when the error is truthy, and otherwise the result (None when absent) |
| JsonRpc.Render | src/utils.py:31-43 | The response dictionary has the `result` key iff it is a result and the `error` key iff it is an error, never both |
| JsonRpc.CreateError | src/utils.py:46-54 | An error object is truthy and has keys `code`, `message`, and `data` exactly when data is not None |
| JsonRpc.ErrorRoundTrip | src/utils.py:46-54 | Reading an error object back gives exactly the code, message and data it was built from |
| Database.NewDbManager | src/database.py:15-18 | A new manager has no current database and a 30.0 s connection timeout |
| Database.SetDatabase | src/database.py:20-38 | Succeeds iff the resolved file exists and is readable, and then records the resolved path; a missing file is FileNotFoundError, an unreadable one PermissionError, and either leaves the manager unchanged |
| Database.SelectPath | src/database.py:43-48 | An explicit path wins, else the current path, else ValueError "No database path specified" |
| Database.GetConnection | src/database.py:41-51 | A connection is opened iff a path is selected and the file exists; otherwise the same error, or FileNotFoundError naming the resolved path |
| Database.ExplicitPathWins | src/database.py:43-44 | With an explicit path the manager's state does not matter |
| Database.SetThenConnect | src/database.py:20-51 | After a successful `set_database`, a connection without a path opens the resolved path |
| Database.AnyContained | src/database.py:88-94 | True iff some pattern occurs in the text |
| Database.ValidateSqlQuery | src/database.py:80-96 | Accepts iff none of the four keywords and six injection markers occurs in the stripped, upper-cased text |
| Database.ValidateMeaning | src/database.py:82-96 | Stripping does not matter: the text is accepted iff no blocked string occurs in it after upper-casing |
| Database.ValidateCaseInsensitive | src/database.py:82 | Two texts equal up to letter case are accepted or refused together |
| Database.RejectedStaysRejected | src/database.py:85-96 | Surrounding a refused text with more text never makes it accepted |
| Database.BlockedPatternRejected | src/database.py:85-94 | Any text holding a blocked keyword or marker, in any case, is refused |
| Statements.Conditions | src/tools.py:521-523 | One `key = ?` term per key, in key order |
| Statements.Placeholders | src/tools.py:484 | n question marks |
| Statements.Insert | src/tools.py:483-487 | The `create` statement binds the data values in key order |
| Statements.Select | src/tools.py:517-533 | The `read` statement binds the `where` values in key order |
| Statements.Update | src/tools.py:561-574 | The `update` statement binds the data values, then the `where` values |
| Statements.Delete | src/tools.py:601-607 | The `delete` statement binds the `where` values in key order |
| Statements.Search | src/tools.py:699-703 | The search statement binds `%term%` once per text column |
| Statements.Likes | src/tools.py:701 | One `col LIKE ?` term per text column, in order |
| Statements.InsertPlaceholders | src/tools.py:479-487 | The `create` text holds as many `?` as there are binds, that is one per data key |
| Statements.InsertColumns | src/tools.py:483-487 | The column list and the `?` list of `create` split back into the data's keys, in order, and one `?` per key; the i-th column receives the i-th value |
| Statements.WhereClauseCount | src/tools.py:520-525 | The `WHERE` clause holds one `?` per `where` key |
| Statements.SelectPlaceholders | src/tools.py:517-533 | The `read` text holds one `?` per `where` key, matching its binds |
| Statements.UpdatePlaceholders | src/tools.py:561-574 | The `update` text holds \|data\|+\|where\| `?`, the number of binds |
| Statements.UpdateAssignments | src/tools.py:563-573 | The `SET` list of `update` splits back into one `key = ?` per data key, in key order, and the i-th assignment receives the i-th data value |
| Statements.DeletePlaceholders | src/tools.py:601-607 | The `delete` text holds one `?` per `where` key, the number of binds |
| Statements.SearchShape | src/tools.py:701-702 | The search text is `SELECT * FROM table WHERE`, then the `col LIKE ?` terms joined by ` OR `, then ` LIMIT 10` |
| Statements.SearchPlaceholders | src/tools.py:699-703 | The search text holds one `?` per text column |
| Statements.TextIgnoresValues | src/tools.py:483-607 | For fixed keys, `order_by`, `limit` and `offset`, the `data` and `where` values never reach the SQL text; they travel only in the bind lists |
| Statements.SelectShape | src/tools.py:517-533 | `read` starts with `SELECT * FROM table`; its ` WHERE` clause is present iff `where` is non-empty; with an empty `order_by` the text is the filter followed directly by the paging clause, and a non-empty `order_by` always changes the text |
| Statements.OffsetNeedsLimit | src/tools.py:530-533 | Without a limit, an offset is dropped |
| Statements.SelectPaging | src/tools.py:530-533 | With a limit, the text ends in ` LIMIT n`, followed by ` OFFSET m` exactly when the offset is non-zero, and both printed numbers read back as the caller's limit and offset |
| Statements.SameFilter | src/tools.py:520-607 | `delete`, `update` and an unpaged `read` use the same ` WHERE` clause for the same `where` and bind the same values to it, in key order |
| Statements.OrderFollowsFilter | src/tools.py:527-528 | A given `order_by` appears verbatim after ` ORDER BY`, right after the filter |
| Tools.DefaultLimits | src/tools.py:15-18 | The tools start with 60 s and 10000 rows |
| Tools.Wrap | src/tools.py:501-502 | A wrapped failure is -32603 with the prefix followed by the exception's text |
| Tools.OpenConnection | src/database.py:41-75 | The path chosen by `get_connection` is opened, and a connection exists iff it was chosen and the engine accepts it |
| Tools.WriteRun | src/tools.py:489-502 | A write executes its one statement, commits iff it succeeds, and wraps any failure under the tool's prefix |
| Tools.ToolCreate | src/tools.py:473-502 | Missing table or data: -32602 with no access; otherwise succeeds iff the connection opens and the engine accepts the `create` statement, commits iff it succeeds, and returns the cursor's `lastrowid` and `rowcount` with the table and data |
| Tools.ToolRead | src/tools.py:504-548 | Missing table: -32602 with no access; otherwise succeeds iff the connection opens and the engine runs the built `SELECT`, and then returns every fetched row, untruncated, with its count and SQL; never commits |
| Tools.ToolUpdate | src/tools.py:550-589 | Missing table, data or where: -32602 with no access; otherwise succeeds iff the engine accepts the `update` statement, commits iff it succeeds, and reports the cursor's `rowcount` with the table, data and where |
| Tools.ToolDelete | src/tools.py:591-621 | Missing table or where: -32602 with no access; otherwise succeeds iff the engine accepts the `delete` statement, commits iff it succeeds, and reports the cursor's `rowcount` with the table and where |
| Tools.SliceTo | src/tools.py:345-346 | Python's `rows[:n]`: a prefix of the rows, of length `min(n, len)` for n >= 0 and `max(0, len + n)` for negative n |
| Tools.Truncate | src/tools.py:345-346 | The truncated rows are a prefix of the fetched rows, of length min(len, max) for a non-negative maximum |
| Tools.TruncateMeaning | src/tools.py:345-353 | At most `max_result_rows` rows; all rows when they fit, exactly the maximum when they do not |
| Tools.QueryFailure | src/tools.py:371-377 | An OperationalError whose lower-cased text holds "interrupted" is a timeout naming the limit; any other OperationalError is "SQL execution failed"; anything else is "Query execution failed" |
| Tools.QueryOutcome | src/tools.py:341-367 | A statement is a read iff its stripped, upper-cased text starts with SELECT; reads return the truncated rows and their count, writes the row count and last row id |
| Tools.RunQuery | src/tools.py:322-377 | The query succeeds iff a connection opens and the statement runs, and then reports the shaped outcome |
| Tools.QueryCommitsOnlyWrites | src/tools.py:339-358 | The query executes only the caller's SQL with its params, and commits iff it succeeds and is not a read |
| Tools.ToolQuery | src/tools.py:309-320 | Empty SQL is -32602 and a blacklisted one -32603 "Potentially dangerous SQL query rejected", both with no access |
| Tools.QueryFailureClassified | src/tools.py:371-377 | Every query failure goes through the classification, and an engine error is classified from that error itself |
| Tools.IsReadCaseInsensitive | src/tools.py:341 | Read detection ignores letter case |
| Tools.IsReadPadding | src/tools.py:341 | Read detection ignores leading whitespace |
| Tools.ToolConnectDatabase | src/tools.py:285-307 | Missing path: -32602; otherwise the path is recorded (even if listing the tables then fails); succeeds iff the file exists, is readable, opens and lists its tables, and the reply counts all tables but names at most the first 10 |
| Tools.ToolGetTables | src/tools.py:379-408 | Succeeds iff the connection opens and the engine lists the tables and views, and returns exactly that listing with its count; never commits; failures are "Failed to get tables: " |
| Tools.ToolGetSchema | src/tools.py:410-471 | Missing table: -32602 with no access; otherwise succeeds iff the connection opens and the engine describes the table, and returns exactly that schema, or wraps the failure under the table's name |
| Tools.ToolAnalyzeTable | src/tools.py:623-671 | Missing table: -32602 with no access; otherwise succeeds iff the connection opens and the engine analyses the table, and returns exactly that analysis, or wraps the failure under the table's name |
| Tools.TextColumns | src/tools.py:696-697 | A column is searched iff its upper-cased type is TEXT, VARCHAR or CHAR |
| Tools.TextColumnsInOrder | src/tools.py:696-697 | The text columns of two column lists in turn are those of each list in turn: table order is kept and nothing is repeated |
| Tools.Put | src/tools.py:709 | Dictionary assignment: an existing key keeps its place and takes the new rows, a new key is appended |
| Tools.SearchTables | src/tools.py:691-712 | A table is in the results iff it was scanned and has text columns and matches; each keeps its own matches; names are unique; failing tables are skipped |
| Tools.ToolSearchData | src/tools.py:673-721 | Missing term: -32602; otherwise succeeds iff the connection opens and, when no tables are named, the table listing succeeds; results hold exactly the scanned tables with hits, each with its own matches, and `matches_found` is their sum |
| Tools.SearchBindsTerm | src/tools.py:699-705 | The per-table search binds `%term%` once per text column |
| Dispatcher.ParseTool | src/tools.py:241-262 | A name selects the tool that bears it |
| Dispatcher.ParseName | src/tools.py:241-260 | Each of the ten tools is selected by its own name |
| Dispatcher.AcceptedNames | src/tools.py:241-262 | A name is accepted iff it is one of the ten tool names |
| Dispatcher.Catalog | src/tools.py:20-236 | The catalogue lists the ten tools in order, with their required arguments |
| Dispatcher.CatalogMatchesDispatch | src/tools.py:20-262 | Every catalogued name is dispatched to its own tool, and no name is listed twice |
| Dispatcher.MissingIsRequired | src/tools.py:20-236 | A tool's own argument check fails iff a catalogued required argument is missing |
| Dispatcher.RefusedIffMissing | src/tools.py:285-680 | A tool fails with -32602 iff a required argument is missing, and then touches no database |
| Dispatcher.NoGet | src/server.py:108-109 | `.get` on a value that is not a dictionary raises AttributeError |
| Dispatcher.Failed | src/tools.py:274-283 | An error envelope holds one text item "Error executing tool NAME: message" and `isError` true |
| Dispatcher.ExecuteTool | src/tools.py:238-283 | One content item always; an unknown name is an error envelope with no access; otherwise `isError` iff the tool failed, and success carries the tool's result |
| Dispatcher.OnlyConnectChangesDatabase | src/tools.py:285-307 | Only `connect_database` changes the current database |
| Dispatcher.OnlyWritesCommit | src/tools.py:238-621 | Only `create`, `update`, `delete` and a non-read `query` commit |
| Dispatcher.DispatcherTotal | src/tools.py:238-283 | The envelope is an error iff the name is unknown, the arguments are not a dictionary, or the tool failed; nothing propagates |
| Dispatcher.ToJson | src/tools.py:264-272 | Every tool result starts with `"success": true` |
| Dispatcher.ConnectReply | src/tools.py:299-305 | The dictionary the `connect_database` tool returns has exactly its own keys, no key twice, and each key reads back the value the tool reported |
| Dispatcher.QueryRowsReply | src/tools.py:350-356 | The dictionary a reading call of the `query` tool returns has exactly its own keys, no key twice, and each key reads back the value the tool reported |
| Dispatcher.QueryWriteReply | src/tools.py:361-367 | The dictionary a writing call of the `query` tool returns has exactly its own keys, no key twice, and each key reads back the value the tool reported |
| Dispatcher.TablesReply | src/tools.py:401-405 | The dictionary the `get_tables` tool returns has exactly its own keys, no key twice, and each key reads back the value the tool reported |
| Dispatcher.SchemaReply | src/tools.py:462-468 | The dictionary the `get_schema` tool returns has exactly its own keys, no key twice, and each key reads back the value the tool reported |
| Dispatcher.CreateReply | src/tools.py:494-500 | The dictionary the `create` tool returns has exactly its own keys, no key twice, and each key reads back the value the tool reported |
| Dispatcher.ReadReply | src/tools.py:540-546 | The dictionary the `read` tool returns has exactly its own keys, no key twice, and each key reads back the value the tool reported |
| Dispatcher.UpdateReply | src/tools.py:581-587 | The dictionary the `update` tool returns has exactly its own keys, no key twice, and each key reads back the value the tool reported |
| Dispatcher.DeleteReply | src/tools.py:614-619 | The dictionary the `delete` tool returns has exactly its own keys, no key twice, and each key reads back the value the tool reported |
| Dispatcher.AnalyzeReply | src/tools.py:662-669 | The dictionary the `analyze_table` tool returns has exactly its own keys, no key twice, and each key reads back the value the tool reported |
| Dispatcher.SearchReply | src/tools.py:714-719 | The dictionary the `search_data` tool returns has exactly its own keys, no key twice, and each key reads back the value the tool reported |
| Dispatcher.ToolResultJson | src/tools.py:264-283 | The envelope has keys `content` and `isError`, with `isError` as decided |
| Server.NewServer | src/server.py:17-31 | A new server is not initialized, has zero counters and no database, and limits of 10 connections, 60 s and 10000 rows |
| Server.UpdateConfig | src/server.py:33-41 | The server's three limits and the tools' two limits come from the configuration; nothing else changes |
| Server.UpdateConfigReachesTools | src/server.py:33-41 | The tools' limits after an update do not depend on the earlier state, and updating twice is updating once |
| Server.ServerInfo | src/server.py:93-100 | The initialize result has keys protocolVersion, capabilities, serverInfo, with version "2025-03-26", the server's capabilities, and the name "sqlite-mcp-server" at version "1.0.0" |
| Server.ToolJson | src/tools.py:20-236 | A `tools/list` entry carries the tool's name, and its input schema has a `required` key exactly when the tool has required arguments, listing them; `get_tables` has none |
| Server.Initialize | src/server.py:84-100 | A non-dictionary params or clientInfo raises before the flag is set; otherwise the flag is set and the server info returned, with no access |
| Server.InitializeIgnoresVersion | src/server.py:86-94 | The requested protocol version has no effect |
| Server.CallTool | src/server.py:106-116 | A missing tool name is -32602 "Tool name is required"; otherwise the result is `execute_tool`'s and the database manager follows it |
| Server.Route | src/server.py:53-64 | Routing never touches the counters, and only `initialize` can change the flag, only from false to true |
| Server.ErrorObject | src/server.py:69-82 | An `MCPError` keeps its own code, message and data; any other exception is -32603 "Internal error" with its text as data |
| Server.HandleRequest | src/server.py:43-82 | Every request adds one to the total and one to exactly one of success and failure, and the reply has a result iff success moved; the reply has "2.0" and the caller's id; an error reply changes nothing else |
| Server.GateBeforeInitialize | src/server.py:55-62 | Before initialisation, `tools/list` and `tools/call` are -32002 "Server not initialized" and touch nothing |
| Server.UnknownMethod | src/server.py:63-64 | Any other method is -32601 "Method not found: METHOD" (None when absent) |
| Server.InitializeReply | src/server.py:53-54 | A well-formed `initialize` always succeeds and sets the flag |
| Server.CallAfterInitialize | src/server.py:59-67 | After initialisation a named tool call is always a successful request, even when the tool fails |
| Server.CountersBalance | src/server.py:45-82 | Over any sequence of requests, total = successful + failed is kept and the total grows by the number of requests |
| Server.InitializedStays | src/server.py:20-91 | Once set, the flag is never cleared |
| Server.OnlyInitializeSetsFlag | src/server.py:20-91 | Without an `initialize` request the flag stays false |
| Server.ReplyJson | src/utils.py:31-43 | The sent response has exactly one of `result` and `error` |

## Left out

- `json.dumps(result, indent=2)`: a successful envelope carries the result as a JSON value, not as indented text.
- `execution_time_seconds` and the other wall-clock timing: this is floating-point time.
- The `threading.Timer` and `conn.interrupt` race: this is concurrency. Only the resulting "interrupted" classification is modelled.
- The SQLite engine itself is a parameter: connecting, pragmas, the row factory, fetching, `rowcount`, `lastrowid` and rollback.
- A failing `conn.commit()`: commits are assumed to succeed, because the engine parameter has no commit outcome.
- The PRAGMA row-to-dictionary mappings of `get_tables`, `get_schema` and `analyze_table`, and `analyze_table`'s numeric statistics and `AVG` rounding: these are engine results, supplied by the engine parameter.
- `Path.resolve`, `os.access` and the large-file warning of `set_database`: the first two are filesystem parameters, the last is logging.
- The descriptions and property schemas of `get_tool_definitions`: only names and required lists are modelled. An input schema on the wire keeps only its `required` key, which is absent for `get_tables` as in the source; `type` and `properties` are dropped.
- The `params` argument of `list_tools`, which is unused.
- `health_check`, `http_handler.py`, `main.py` and `setup_logging`: these are transport, process start-up and logging.
- `connection_timeout` is carried but unused, because it only reaches `sqlite3.connect`.
- Non-dictionary `data` or `where` values, and non-string tool names, methods or SQL: arguments are typed.
- Statements.LimitClause: `limit` and `offset` are integers, printed in decimal. The source splices whatever value it is given with `f"{limit}"`, so a string limit such as `"1; DELETE FROM t"` reaches the SQL text without passing `validate_sql_query`. The model does not cover that case.
- The `tables` argument is typed as a list of strings and `params` as a list of JSON values. The source passes on whatever value it is given.
- Dispatcher.ExecuteTool: rows hold JSON values only. In the source, `json.dumps` runs inside `execute_tool`'s `try`. A value it cannot serialise, such as a BLOB fetched as bytes, makes a successful tool come back as an error envelope with `isError: true`. The model always returns the success envelope when the tool succeeded.
- Text.Upper: folds ASCII letters only, not Python's full Unicode case mapping. Python's `upper()` also maps 'ſ' to 'S', 'ı' to 'I' and 'ﬆ' to "ST". So `validate_sql_query` (src/database.py:82) refuses `SELECT 1 UNION ſELECT 2`, while Database.ValidateSqlQuery accepts it. Likewise `_tool_query` (src/tools.py:341) treats `ſelect * from t` as a read, while Tools.IsRead treats it as a write. The model gives no promise for such non-ASCII text.
- Text.Lower: folds ASCII letters only, like Text.Upper. For the "interrupted" test in Tools.QueryFailure this changes nothing. The non-ASCII letters whose lower case is ASCII are 'İ' and the Kelvin sign. 'İ' lowers to "i" followed by U+0307, which cannot start "interrupted", and "interrupted" has no 'k'.
- Dispatcher replies: the read-back lemmas fix each reply's key set and values. They do not fix the order of the keys after `success`, which matters only once the dictionary is serialised.
- Server.NewServer: the server's own `max_query_time` starts as the float 60.0 and is kept as the integer 60. The tools never see that value.
- Tools.TextColumns: a declared type such as `VARCHAR(20)` is not a text column. The source compares the whole upper-cased type, and so does the model.

=== FILE: basics.dfy ===
/** Option and Result, the two failure-carrying shapes used throughout the model. */
module Basics {

  datatype Option<+T> = None | Some(value: T)

  /** The value of a computation that either returns normally or raises. */
  datatype Result<+T, +E> = Ok(value: T) | Err(error: E)

  function Min(a: int, b: int): int { if a <= b then a else b }

  function Max(a: int, b: int): int { if a <= b then b else a }
}

=== FILE: database.dfy ===
/** The connection provider and the SQL safety filter of the database manager.
    The filesystem is an oracle: how a path resolves, and whether the file exists and is readable. */
module Database {
  import opened Basics
  import opened Text
  import opened Models

  datatype FileSystem = FileSystem(
    resolve: string -> string,      // `Path(p).resolve()`
    fileExists: string -> bool,     // `Path.exists()` of a resolved path
    isReadable: string -> bool)     // `os.access(path, os.R_OK)` of a resolved path

  /** The manager's state: the resolved path of the current database, if one was set. */
  datatype DbManager = DbManager(currentDbPath: Option<string>, connectionTimeout: real)

  function NewDbManager(): (m: DbManager)
    ensures m.currentDbPath.None? && m.connectionTimeout == 30.0
  {
    DbManager(None, 30.0)
  }

  /** The manager after `set_database`, and the exception it raised, if any. */
  datatype SetOutcome = SetOutcome(manager: DbManager, error: Option<Exc>)

  /** `set_database`: records the resolved path only when the file exists and is readable. */
  function SetDatabase(m: DbManager, dbPath: string, fs: FileSystem): (r: SetOutcome)
    ensures r.error.None? <==> fs.fileExists(fs.resolve(dbPath)) && fs.isReadable(fs.resolve(dbPath))
    ensures r.error.None? ==> r.manager == m.(currentDbPath := Some(fs.resolve(dbPath)))
    ensures r.error.Some? ==> r.manager == m
    ensures !fs.fileExists(fs.resolve(dbPath)) ==>
              r.error == Some(PyError(FileNotFoundError, "Database file not found: " + dbPath))
    ensures fs.fileExists(fs.resolve(dbPath)) && !fs.isReadable(fs.resolve(dbPath)) ==>
              r.error == Some(PyError(PermissionError, "Database file is not readable: " + dbPath))
  {
    var file := fs.resolve(dbPath);
    if !fs.fileExists(file) then
      SetOutcome(m, Some(PyError(FileNotFoundError, "Database file not found: " + dbPath)))
    else if !fs.isReadable(file) then
      SetOutcome(m, Some(PyError(PermissionError, "Database file is not readable: " + dbPath)))
    else
      SetOutcome(m.(currentDbPath := Some(file)), None)
  }

  /** The path `get_connection` opens: an explicit (non-empty) path first, then the current one. */
  function SelectPath(m: DbManager, dbPath: string, fs: FileSystem): (r: Result<string, Exc>)
    ensures dbPath != "" ==> r == Ok(fs.resolve(dbPath))
    ensures dbPath == "" && m.currentDbPath.Some? ==> r == Ok(m.currentDbPath.value)
    ensures dbPath == "" && m.currentDbPath.None? ==> r == Err(PyError(ValueError, "No database path specified"))
  {
    if dbPath != "" then Ok(fs.resolve(dbPath))
    else if m.currentDbPath.Some? then Ok(m.currentDbPath.value)
    else Err(PyError(ValueError, "No database path specified"))
  }

  /** `get_connection` up to opening the engine: the chosen path, which must exist. */
  function GetConnection(m: DbManager, dbPath: string, fs: FileSystem): (r: Result<string, Exc>)
    ensures r.Ok? <==> SelectPath(m, dbPath, fs).Ok? && fs.fileExists(SelectPath(m, dbPath, fs).value)
    ensures r.Ok? ==> r.value == SelectPath(m, dbPath, fs).value
    ensures SelectPath(m, dbPath, fs).Err? ==> r == SelectPath(m, dbPath, fs)
    ensures SelectPath(m, dbPath, fs).Ok? && !fs.fileExists(SelectPath(m, dbPath, fs).value) ==>
              r == Err(PyError(FileNotFoundError, "Database file not found: " + SelectPath(m, dbPath, fs).value))
  {
    match SelectPath(m, dbPath, fs)
    case Err(e) => Err(e)
    case Ok(file) =>
      if fs.fileExists(file) then Ok(file)
      else Err(PyError(FileNotFoundError, "Database file not found: " + file))
  }

  /** An explicit path makes the current database irrelevant. */
  lemma ExplicitPathWins(m1: DbManager, m2: DbManager, dbPath: string, fs: FileSystem)
    requires dbPath != ""
    ensures GetConnection(m1, dbPath, fs) == GetConnection(m2, dbPath, fs)
  {
  }

  /** After a successful `set_database`, a connection without an explicit path opens that database. */
  lemma SetThenConnect(m: DbManager, dbPath: string, fs: FileSystem)
    requires SetDatabase(m, dbPath, fs).error.None?
    ensures GetConnection(SetDatabase(m, dbPath, fs).manager, "", fs) == Ok(fs.resolve(dbPath))
  {
  }

  // ---------------------------------------------------------------- safety filter

  const DangerousKeywords: seq<string> := ["DROP DATABASE", "DROP SCHEMA", "TRUNCATE", "PRAGMA"]

  const InjectionPatterns: seq<string> := [";--", "/*", "*/", "UNION SELECT", "EXEC(", "EXECUTE("]

  /** Every pattern the filter refuses, keywords first. */
  const Blocked: seq<string> := DangerousKeywords + InjectionPatterns

  /** Whether any of `patterns` occurs in `text`, scanning the list in order. */
  function AnyContained(text: string, patterns: seq<string>): (r: bool)
    ensures r <==> exists i :: 0 <= i < |patterns| && Occurs(text, patterns[i])
  {
    if |patterns| == 0 then false
    else if Contains(text, patterns[0]) then true
    else
      var r := AnyContained(text, patterns[1..]);
      assert forall i :: 1 <= i < |patterns| ==> patterns[i] == patterns[1..][i - 1];
      r
  }

  /** `validate_sql_query`: the stripped, upper-cased text must hold no blocked pattern. */
  function ValidateSqlQuery(sql: string): (ok: bool)
    ensures ok <==> forall i :: 0 <= i < |Blocked| ==> !Occurs(Upper(Strip(sql)), Blocked[i])
  {
    var text := Upper(Strip(sql));
    AnyContainedAppend(text, DangerousKeywords, InjectionPatterns);
    if AnyContained(text, DangerousKeywords) then false
    else if AnyContained(text, InjectionPatterns) then false
    else true
  }

  /** Scanning two pattern lists in turn finds a hit exactly when scanning their concatenation does. */
  lemma AnyContainedAppend(text: string, xs: seq<string>, ys: seq<string>)
    ensures AnyContained(text, xs + ys) <==> AnyContained(text, xs) || AnyContained(text, ys)
  {
    var zs := xs + ys;
    assert forall i :: 0 <= i < |xs| ==> zs[i] == xs[i];
    assert forall i :: 0 <= i < |ys| ==> zs[|xs| + i] == ys[i];
    if AnyContained(text, zs) {
      var i :| 0 <= i < |zs| && Occurs(text, zs[i]);
      if i >= |xs| {
        assert Occurs(text, ys[i - |xs|]);
      }
    }
  }

  /** No blocked pattern begins or ends with whitespace. */
  lemma BlockedEdgesAreNotSpace(i: int)
    requires 0 <= i < |Blocked|
    ensures |Blocked[i]| > 0 && !IsSpace(Blocked[i][0]) && !IsSpace(Blocked[i][|Blocked[i]| - 1])
  {
  }

  /** Cutting whitespace off both ends of a text keeps every occurrence of a pattern whose ends are not whitespace. */
  lemma TrimKeepsOccurrence(u: string, a: nat, b: nat, p: string)
    requires a <= b <= |u|
    requires forall i :: 0 <= i < a ==> IsSpace(u[i])
    requires forall i :: b <= i < |u| ==> IsSpace(u[i])
    requires |p| > 0 && !IsSpace(p[0]) && !IsSpace(p[|p| - 1])
    ensures Occurs(u[a..b], p) <==> Occurs(u, p)
  {
    if Occurs(u[a..b], p) {
      var i :| OccursAt(u[a..b], p, i);
      forall k | 0 <= k < |p|
        ensures u[a + i + k] == p[k]
      {
        assert u[a..b][i..i + |p|][k] == p[k];
      }
      assert u[a + i..a + i + |p|] == p;
      assert OccursAt(u, p, a + i);
    }
    if Occurs(u, p) {
      var i :| OccursAt(u, p, i);
      var j := i + |p| - 1;
      assert u[i] == p[0] && u[j] == p[|p| - 1];
      assert a <= i && j < b;
      forall k | 0 <= k < |p|
        ensures u[a..b][i - a + k] == p[k]
      {
        assert u[i..i + |p|][k] == p[k];
      }
      assert u[a..b][i - a..i - a + |p|] == p;
      assert OccursAt(u[a..b], p, i - a);
    }
  }

  /** Stripping cannot create or destroy an occurrence of a pattern whose ends are not whitespace. */
  lemma StripKeepsOccurrence(s: string, p: string)
    requires |p| > 0 && !IsSpace(p[0]) && !IsSpace(p[|p| - 1])
    ensures Occurs(Upper(Strip(s)), p) <==> Occurs(Upper(s), p)
  {
    var a, b := StripBounds(s);
    UpperSlice(s, a, b);
    TrimKeepsOccurrence(Upper(s), a, b, p);
  }

  /** The filter's verdict: no blocked pattern anywhere in the upper-cased text, surrounding whitespace or not. */
  lemma ValidateMeaning(sql: string)
    ensures ValidateSqlQuery(sql) <==> forall i :: 0 <= i < |Blocked| ==> !Occurs(Upper(sql), Blocked[i])
  {
    forall i | 0 <= i < |Blocked|
      ensures Occurs(Upper(Strip(sql)), Blocked[i]) <==> Occurs(Upper(sql), Blocked[i])
    {
      BlockedEdgesAreNotSpace(i);
      StripKeepsOccurrence(sql, Blocked[i]);
    }
  }

  /** The filter cannot tell two texts apart that differ only in letter case. */
  lemma ValidateCaseInsensitive(s: string, t: string)
    requires Upper(s) == Upper(t)
    ensures ValidateSqlQuery(s) == ValidateSqlQuery(t)
  {
    ValidateMeaning(s);
    ValidateMeaning(t);
  }

  /** Surrounding a rejected text with more text never makes it accepted. */
  lemma RejectedStaysRejected(sql: string, before: string, after: string)
    requires !ValidateSqlQuery(sql)
    ensures !ValidateSqlQuery(before + sql + after)
  {
    ValidateMeaning(sql);
    ValidateMeaning(before + sql + after);
    var i :| 0 <= i < |Blocked| && Occurs(Upper(sql), Blocked[i]);
    OccursExtend(Upper(sql), Blocked[i], Upper(before), Upper(after));
    UpperAppend(before, sql);
    UpperAppend(before + sql, after);
  }

  /** Each dangerous keyword and injection pattern, in any letter case, is refused. */
  lemma BlockedPatternRejected(sql: string, i: int)
    requires 0 <= i < |Blocked| && Occurs(Upper(sql), Blocked[i])
    ensures !ValidateSqlQuery(sql)
  {
    ValidateMeaning(sql);
  }
}

=== FILE: dispatcher.dfy ===
/** `MCPTools.execute_tool`: the closed set of ten tool names, the catalog `tools/list` returns, and
    the `{content, isError}` envelope every call ends in, whatever the tool raised. */
module Dispatcher {
  import opened Basics
  import opened Json
  import opened Text
  import opened Models
  import opened Database
  import opened Statements
  import opened Tools

  datatype Tool =
    | ConnectDatabaseTool | QueryTool | GetTablesTool | GetSchemaTool | CreateTool
    | ReadTool | UpdateTool | DeleteTool | AnalyzeTableTool | SearchDataTool

  /** The tools in the order of the catalog and of the dispatch chain. */
  const AllTools: seq<Tool> := [ConnectDatabaseTool, QueryTool, GetTablesTool, GetSchemaTool, CreateTool,
                                ReadTool, UpdateTool, DeleteTool, AnalyzeTableTool, SearchDataTool]

  function Name(t: Tool): string {
    match t
    case ConnectDatabaseTool => "connect_database"
    case QueryTool => "query"
    case GetTablesTool => "get_tables"
    case GetSchemaTool => "get_schema"
    case CreateTool => "create"
    case ReadTool => "read"
    case UpdateTool => "update"
    case DeleteTool => "delete"
    case AnalyzeTableTool => "analyze_table"
    case SearchDataTool => "search_data"
  }

  /** The `if tool_name == ...` chain: the tool a name selects, if any. */
  function ParseTool(name: string): (t: Option<Tool>)
    ensures t.Some? ==> Name(t.value) == name
  {
    if name == "connect_database" then Some(ConnectDatabaseTool)
    else if name == "query" then Some(QueryTool)
    else if name == "get_tables" then Some(GetTablesTool)
    else if name == "get_schema" then Some(GetSchemaTool)
    else if name == "create" then Some(CreateTool)
    else if name == "read" then Some(ReadTool)
    else if name == "update" then Some(UpdateTool)
    else if name == "delete" then Some(DeleteTool)
    else if name == "analyze_table" then Some(AnalyzeTableTool)
    else if name == "search_data" then Some(SearchDataTool)
    else None
  }

  /** Every tool is reached by its own name, so the dispatcher accepts exactly the ten names. */
  lemma ParseName(t: Tool)
    ensures ParseTool(Name(t)) == Some(t)
  {
  }

  /** Where a tool sits in the catalog order. */
  function Position(t: Tool): (i: nat)
    ensures i < |AllTools| && AllTools[i] == t
  {
    match t
    case ConnectDatabaseTool => 0
    case QueryTool => 1
    case GetTablesTool => 2
    case GetSchemaTool => 3
    case CreateTool => 4
    case ReadTool => 5
    case UpdateTool => 6
    case DeleteTool => 7
    case AnalyzeTableTool => 8
    case SearchDataTool => 9
  }

  /** A name is accepted exactly when it is the name of one of the ten tools. */
  lemma AcceptedNames(name: string)
    ensures ParseTool(name).Some? <==> exists i :: 0 <= i < |AllTools| && Name(AllTools[i]) == name
  {
    if ParseTool(name).Some? {
      var i := Position(ParseTool(name).value);
      assert Name(AllTools[i]) == name;
    } else {
      forall i | 0 <= i < |AllTools|
        ensures Name(AllTools[i]) != name
      {
        ParseName(AllTools[i]);
      }
    }
  }

  // ---------------------------------------------------------------- the catalog

  /** One catalog entry, reduced to its name and the `required` list of its input schema. */
  datatype ToolSpec = ToolSpec(name: string, required: seq<string>)

  function Required(t: Tool): seq<string> {
    match t
    case ConnectDatabaseTool => ["db_path"]
    case QueryTool => ["sql"]
    case GetTablesTool => []
    case GetSchemaTool => ["table"]
    case CreateTool => ["table", "data"]
    case ReadTool => ["table"]
    case UpdateTool => ["table", "data", "where"]
    case DeleteTool => ["table", "where"]
    case AnalyzeTableTool => ["table"]
    case SearchDataTool => ["search_term"]
  }

  /** `get_tool_definitions()`, names and required arguments only. */
  function Catalog(): (c: seq<ToolSpec>)
    ensures |c| == |AllTools|
    ensures forall i :: 0 <= i < |c| ==> c[i] == ToolSpec(Name(AllTools[i]), Required(AllTools[i]))
  {
    seq(|AllTools|, i requires 0 <= i < |AllTools| => ToolSpec(Name(AllTools[i]), Required(AllTools[i])))
  }

  /** The catalog advertises exactly the names the dispatcher accepts, each once. */
  lemma CatalogMatchesDispatch()
    ensures forall i :: 0 <= i < |Catalog()| ==> ParseTool(Catalog()[i].name) == Some(AllTools[i])
    ensures forall i, j :: 0 <= i < j < |Catalog()| ==> Catalog()[i].name != Catalog()[j].name
  {
    forall i | 0 <= i < |Catalog()|
      ensures ParseTool(Catalog()[i].name) == Some(AllTools[i])
    {
      ParseName(AllTools[i]);
    }
  }

  /** Whether a required argument, named as in the schema, is present (truthy) in the call. */
  predicate Present(a: Arguments, key: string) {
    match key
    case "db_path" => a.dbPath != ""
    case "sql" => a.sql != ""
    case "table" => a.table != ""
    case "data" => |a.data| > 0
    case "where" => |a.where| > 0
    case "search_term" => a.searchTerm != ""
    case _ => true
  }

  // ---------------------------------------------------------------- dispatch

  function RunTool(t: Tool, e: Engine, m: DbManager, l: Limits, a: Arguments): Run {
    match t
    case ConnectDatabaseTool => ToolConnectDatabase(e, m, a)
    case QueryTool => ToolQuery(e, m, l, a)
    case GetTablesTool => ToolGetTables(e, m, a)
    case GetSchemaTool => ToolGetSchema(e, m, a)
    case CreateTool => ToolCreate(e, m, a)
    case ReadTool => ToolRead(e, m, a)
    case UpdateTool => ToolUpdate(e, m, a)
    case DeleteTool => ToolDelete(e, m, a)
    case AnalyzeTableTool => ToolAnalyzeTable(e, m, a)
    case SearchDataTool => ToolSearchData(e, m, a)
  }

  /** The arguments the tool's own check finds missing. */
  predicate Missing(t: Tool, a: Arguments) {
    match t
    case ConnectDatabaseTool => a.dbPath == ""
    case QueryTool => a.sql == ""
    case GetTablesTool => false
    case GetSchemaTool => a.table == ""
    case CreateTool => a.table == "" || |a.data| == 0
    case ReadTool => a.table == ""
    case UpdateTool => a.table == "" || |a.data| == 0 || |a.where| == 0
    case DeleteTool => a.table == "" || |a.where| == 0
    case AnalyzeTableTool => a.table == ""
    case SearchDataTool => a.searchTerm == ""
  }

  /** The checks the tools make are exactly the `required` lists of the catalog. */
  lemma MissingIsRequired(t: Tool, a: Arguments)
    ensures Missing(t, a) <==> exists k :: k in Required(t) && !Present(a, k)
  {
    if Missing(t, a) {
      if t in {CreateTool, UpdateTool, DeleteTool} && a.table == "" {
        assert !Present(a, Required(t)[0]);
      } else if t in {CreateTool, UpdateTool} && |a.data| == 0 {
        assert !Present(a, Required(t)[1]);
      } else if t == UpdateTool {
        assert !Present(a, Required(t)[2]);
      } else if t == DeleteTool {
        assert !Present(a, Required(t)[1]);
      } else {
        assert !Present(a, Required(t)[0]);
      }
    }
  }

  /** A tool refuses a call with code -32602, before any database access, exactly when one of its
      required arguments is missing; every later failure carries -32603. */
  lemma RefusedIffMissing(t: Tool, e: Engine, m: DbManager, l: Limits, a: Arguments)
    ensures var r := RunTool(t, e, m, l, a);
            Missing(t, a) <==> r.result.Err? && r.result.error.McpError? && r.result.error.code == -32602
    ensures Missing(t, a) ==> RunTool(t, e, m, l, a).trace == []
  {
    if t == QueryTool && a.sql != "" && ValidateSqlQuery(a.sql) {
      QueryFailureClassified(e, m, l, a);
    }
  }

  /** One item of the `content` list; a success carries the tool's dictionary, whose `json.dumps`
      rendering is not modelled. */
  datatype Content = TextContent(text: string) | JsonContent(payload: Json)

  /** The `{content, isError}` dictionary `execute_tool` returns. */
  datatype ToolResult = ToolResult(content: seq<Content>, isError: bool)

  /** The `arguments` of a call: a dictionary, or some other JSON value whose `.get` raises. */
  datatype ArgsValue = ArgsObject(args: Arguments) | ArgsOther(typeName: string)

  /** The exception a `.get` on a non-dictionary raises. */
  function NoGet(typeName: string): (x: Exc)
    ensures x.PyError? && x.kind == AttributeError
  {
    PyError(AttributeError, "'" + typeName + "' object has no attribute 'get'")
  }

  /** The call's effect: the database manager afterwards, the envelope, and the accesses made. */
  datatype Dispatched = Dispatched(manager: DbManager, result: ToolResult, trace: seq<Event>)

  /** The envelope for an exception the tool raised. */
  function Failed(name: string, x: Exc): (r: ToolResult)
    ensures r.isError && |r.content| == 1
    ensures r.content[0] == TextContent("Error executing tool " + name + ": " + x.Str())
  {
    ToolResult([TextContent("Error executing tool " + name + ": " + x.Str())], true)
  }

  /** `execute_tool`: never raises. A success is one content item holding the tool's dictionary with
      `isError: false`; an unknown name or any exception is one text item with `isError: true`. */
  function ExecuteTool(e: Engine, m: DbManager, l: Limits, name: string, args: ArgsValue): (d: Dispatched)
    ensures |d.result.content| == 1
    ensures ParseTool(name).None? ==>
              d == Dispatched(m, Failed(name, McpError(-32601, "Unknown tool: " + name)), [])
    ensures ParseTool(name).Some? && args.ArgsOther? ==>
              d == Dispatched(m, Failed(name, NoGet(args.typeName)), [])
    ensures ParseTool(name).Some? && args.ArgsObject? ==>
              var r := RunTool(ParseTool(name).value, e, m, l, args.args);
              d.manager == r.manager && d.trace == r.trace &&
              (d.result.isError <==> r.result.Err?) &&
              (r.result.Ok? ==> d.result.content == [JsonContent(ToJson(r.result.value))]) &&
              (r.result.Err? ==> d.result == Failed(name, r.result.error))
  {
    match ParseTool(name)
    case None => Dispatched(m, Failed(name, McpError(-32601, "Unknown tool: " + name)), [])
    case Some(t) =>
      match args
      case ArgsOther(typeName) => Dispatched(m, Failed(name, NoGet(typeName)), [])
      case ArgsObject(a) =>
        var r := RunTool(t, e, m, l, a);
        match r.result
        case Ok(o) => Dispatched(r.manager, ToolResult([JsonContent(ToJson(o))], false), r.trace)
        case Err(x) => Dispatched(r.manager, Failed(name, x), r.trace)
  }

  /** Only `connect_database` changes which database is current. */
  lemma OnlyConnectChangesDatabase(e: Engine, m: DbManager, l: Limits, name: string, args: ArgsValue)
    requires name != "connect_database"
    ensures ExecuteTool(e, m, l, name, args).manager == m
  {
  }

  /** Only `create`, `update`, `delete` and a `query` that is not a read ever commit. */
  lemma OnlyWritesCommit(e: Engine, m: DbManager, l: Limits, name: string, a: Arguments)
    requires Commit in ExecuteTool(e, m, l, name, ArgsObject(a)).trace
    ensures name in ["create", "update", "delete", "query"]
    ensures name == "query" ==> !IsRead(a.sql)
  {
    var t := ParseTool(name).value;
    if t == QueryTool {
      if a.sql != "" && ValidateSqlQuery(a.sql) {
        QueryCommitsOnlyWrites(e, m, l, a);
      }
    }
  }

  /** Nothing escapes the dispatcher: it reports an error exactly when the name is unknown, the
      arguments are not a dictionary, or the tool raised. */
  lemma DispatcherTotal(e: Engine, m: DbManager, l: Limits, name: string, args: ArgsValue)
    ensures ExecuteTool(e, m, l, name, args).result.isError <==>
              ParseTool(name).None? || args.ArgsOther? ||
              RunTool(ParseTool(name).value, e, m, l, args.args).result.Err?
  {
  }

  // ---------------------------------------------------------------- the returned dictionaries

  function RowsJson(rows: seq<Dict>): (j: Json)
    ensures j.JArray? && |j.items| == |rows|
  {
    JArray(seq(|rows|, i requires 0 <= i < |rows| => JObject(rows[i])))
  }

  function StringsJson(ss: seq<string>): (j: Json)
    ensures j.JArray? && |j.items| == |ss|
  {
    JArray(seq(|ss|, i requires 0 <= i < |ss| => JString(ss[i])))
  }

  function ResultsJson(res: Results): (j: Json)
    ensures j.JObject? && Keys(j.fields) == Names(res)
  {
    JObject(seq(|res|, i requires 0 <= i < |res| => (res[i].0, RowsJson(res[i].1))))
  }

  /** The dictionary a tool returns, as JSON; the wall-clock `execution_time_seconds` is omitted. The
      lemmas after it read each outcome's keys and values back. */
  function ToJson(o: Outcome): (j: Json)
    ensures j.JObject? && |j.fields| > 0 && j.fields[0] == ("success", JBool(true))
  {
    var ok := ("success", JBool(true));
    match o
    case Connected(message, path, found, tables) =>
      JObject([ok, ("message", JString(message)), ("database_path", JString(path)),
               ("tables_found", JInt(found)), ("tables", StringsJson(tables))])
    case QueryRows(rows, count, query) =>
      JObject([ok, ("data", RowsJson(rows)), ("row_count", JInt(count)), ("query", JString(query))])
    case QueryWrite(affected, lastId, query) =>
      JObject([ok, ("affected_rows", JInt(affected)), ("last_row_id", lastId), ("query", JString(query))])
    case TableList(entries, count) =>
      JObject([ok, ("tables", JArray(entries)), ("count", JInt(count))])
    case TableSchema(table, s) =>
      JObject([ok, ("table", JString(table)), ("columns", JArray(s.columns)),
               ("foreign_keys", JArray(s.foreignKeys)), ("indexes", JArray(s.indexes))])
    case Created(id, affected, table, data) =>
      JObject([ok, ("inserted_id", id), ("affected_rows", JInt(affected)), ("table", JString(table)),
               ("data", JObject(data))])
    case ReadRows(rows, count, table, query) =>
      JObject([ok, ("data", RowsJson(rows)), ("row_count", JInt(count)), ("table", JString(table)),
               ("query", JString(query))])
    case Updated(affected, table, data, where) =>
      JObject([ok, ("affected_rows", JInt(affected)), ("table", JString(table)), ("data", JObject(data)),
               ("where", JObject(where))])
    case Deleted(affected, table, where) =>
      JObject([ok, ("affected_rows", JInt(affected)), ("table", JString(table)), ("where", JObject(where))])
    case Analyzed(table, an) =>
      JObject([ok, ("table", JString(table)), ("row_count", an.rowCount), ("columns", JArray(an.columns)),
               ("sample_data", RowsJson(an.sample)), ("column_statistics", JObject(an.statistics))])
    case Found(term, res, count) =>
      JObject([ok, ("search_term", JString(term)), ("results", ResultsJson(res)), ("matches_found", JInt(count))])
  }

  /** What the `connect_database` tool returns: exactly its keys, each reading back the value reported. */
  lemma ConnectReply(o: Outcome)
    requires o.Connected?
    ensures var f := ToJson(o).fields;
            UniqueKeys(f) && |f| == 5 &&
            Lookup(f, "success") == Some(JBool(true)) &&
            Lookup(f, "message") == Some(JString(o.message)) &&
            Lookup(f, "database_path") == Some(JString(o.databasePath)) &&
            Lookup(f, "tables_found") == Some(JInt(o.tablesFound)) &&
            Lookup(f, "tables") == Some(StringsJson(o.tables))
  {
    var f := ToJson(o).fields;
    assert UniqueKeys(f);
    LookupUnique(f, 0); LookupUnique(f, 1); LookupUnique(f, 2); LookupUnique(f, 3); LookupUnique(f, 4);
  }

  /** What a reading call of the `query` tool returns: exactly its keys, each reading back the value reported. */
  lemma QueryRowsReply(o: Outcome)
    requires o.QueryRows?
    ensures var f := ToJson(o).fields;
            UniqueKeys(f) && |f| == 4 &&
            Lookup(f, "success") == Some(JBool(true)) &&
            Lookup(f, "data") == Some(RowsJson(o.rows)) &&
            Lookup(f, "row_count") == Some(JInt(o.rowCount)) &&
            Lookup(f, "query") == Some(JString(o.query))
  {
    var f := ToJson(o).fields;
    assert UniqueKeys(f);
    LookupUnique(f, 0); LookupUnique(f, 1); LookupUnique(f, 2); LookupUnique(f, 3);
  }

  /** What a writing call of the `query` tool returns: exactly its keys, each reading back the value reported. */
  lemma QueryWriteReply(o: Outcome)
    requires o.QueryWrite?
    ensures var f := ToJson(o).fields;
            UniqueKeys(f) && |f| == 4 &&
            Lookup(f, "success") == Some(JBool(true)) &&
            Lookup(f, "affected_rows") == Some(JInt(o.affectedRows)) &&
            Lookup(f, "last_row_id") == Some(o.lastRowId) &&
            Lookup(f, "query") == Some(JString(o.query))
  {
    var f := ToJson(o).fields;
    assert UniqueKeys(f);
    LookupUnique(f, 0); LookupUnique(f, 1); LookupUnique(f, 2); LookupUnique(f, 3);
  }

  /** What the `get_tables` tool returns: exactly its keys, each reading back the value reported. */
  lemma TablesReply(o: Outcome)
    requires o.TableList?
    ensures var f := ToJson(o).fields;
            UniqueKeys(f) && |f| == 3 &&
            Lookup(f, "success") == Some(JBool(true)) &&
            Lookup(f, "tables") == Some(JArray(o.entries)) &&
            Lookup(f, "count") == Some(JInt(o.count))
  {
    var f := ToJson(o).fields;
    assert UniqueKeys(f);
    LookupUnique(f, 0); LookupUnique(f, 1); LookupUnique(f, 2);
  }

  /** What the `get_schema` tool returns: exactly its keys, each reading back the value reported. */
  lemma SchemaReply(o: Outcome)
    requires o.TableSchema?
    ensures var f := ToJson(o).fields;
            UniqueKeys(f) && |f| == 5 &&
            Lookup(f, "success") == Some(JBool(true)) &&
            Lookup(f, "table") == Some(JString(o.table)) &&
            Lookup(f, "columns") == Some(JArray(o.schema.columns)) &&
            Lookup(f, "foreign_keys") == Some(JArray(o.schema.foreignKeys)) &&
            Lookup(f, "indexes") == Some(JArray(o.schema.indexes))
  {
    var f := ToJson(o).fields;
    assert UniqueKeys(f);
    LookupUnique(f, 0); LookupUnique(f, 1); LookupUnique(f, 2); LookupUnique(f, 3); LookupUnique(f, 4);
  }

  /** What the `create` tool returns: exactly its keys, each reading back the value reported. */
  lemma CreateReply(o: Outcome)
    requires o.Created?
    ensures var f := ToJson(o).fields;
            UniqueKeys(f) && |f| == 5 &&
            Lookup(f, "success") == Some(JBool(true)) &&
            Lookup(f, "inserted_id") == Some(o.insertedId) &&
            Lookup(f, "affected_rows") == Some(JInt(o.affectedRows)) &&
            Lookup(f, "table") == Some(JString(o.table)) &&
            Lookup(f, "data") == Some(JObject(o.data))
  {
    var f := ToJson(o).fields;
    assert UniqueKeys(f);
    LookupUnique(f, 0); LookupUnique(f, 1); LookupUnique(f, 2); LookupUnique(f, 3); LookupUnique(f, 4);
  }

  /** What the `read` tool returns: exactly its keys, each reading back the value reported. */
  lemma ReadReply(o: Outcome)
    requires o.ReadRows?
    ensures var f := ToJson(o).fields;
            UniqueKeys(f) && |f| == 5 &&
            Lookup(f, "success") == Some(JBool(true)) &&
            Lookup(f, "data") == Some(RowsJson(o.rows)) &&
            Lookup(f, "row_count") == Some(JInt(o.rowCount)) &&
            Lookup(f, "table") == Some(JString(o.table)) &&
            Lookup(f, "query") == Some(JString(o.query))
  {
    var f := ToJson(o).fields;
    assert UniqueKeys(f);
    LookupUnique(f, 0); LookupUnique(f, 1); LookupUnique(f, 2); LookupUnique(f, 3); LookupUnique(f, 4);
  }

  /** What the `update` tool returns: exactly its keys, each reading back the value reported. */
  lemma UpdateReply(o: Outcome)
    requires o.Updated?
    ensures var f := ToJson(o).fields;
            UniqueKeys(f) && |f| == 5 &&
            Lookup(f, "success") == Some(JBool(true)) &&
            Lookup(f, "affected_rows") == Some(JInt(o.affectedRows)) &&
            Lookup(f, "table") == Some(JString(o.table)) &&
            Lookup(f, "data") == Some(JObject(o.data)) &&
            Lookup(f, "where") == Some(JObject(o.where))
  {
    var f := ToJson(o).fields;
    assert UniqueKeys(f);
    LookupUnique(f, 0); LookupUnique(f, 1); LookupUnique(f, 2); LookupUnique(f, 3); LookupUnique(f, 4);
  }

  /** What the `delete` tool returns: exactly its keys, each reading back the value reported. */
  lemma DeleteReply(o: Outcome)
    requires o.Deleted?
    ensures var f := ToJson(o).fields;
            UniqueKeys(f) && |f| == 4 &&
            Lookup(f, "success") == Some(JBool(true)) &&
            Lookup(f, "affected_rows") == Some(JInt(o.affectedRows)) &&
            Lookup(f, "table") == Some(JString(o.table)) &&
            Lookup(f, "where") == Some(JObject(o.where))
  {
    var f := ToJson(o).fields;
    assert UniqueKeys(f);
    LookupUnique(f, 0); LookupUnique(f, 1); LookupUnique(f, 2); LookupUnique(f, 3);
  }

  /** What the `analyze_table` tool returns: exactly its keys, each reading back the value reported. */
  lemma AnalyzeReply(o: Outcome)
    requires o.Analyzed?
    ensures var f := ToJson(o).fields;
            UniqueKeys(f) && |f| == 6 &&
            Lookup(f, "success") == Some(JBool(true)) &&
            Lookup(f, "table") == Some(JString(o.table)) &&
            Lookup(f, "row_count") == Some(o.analysis.rowCount) &&
            Lookup(f, "columns") == Some(JArray(o.analysis.columns)) &&
            Lookup(f, "sample_data") == Some(RowsJson(o.analysis.sample)) &&
            Lookup(f, "column_statistics") == Some(JObject(o.analysis.statistics))
  {
    var f := ToJson(o).fields;
    assert UniqueKeys(f);
    LookupUnique(f, 0); LookupUnique(f, 1); LookupUnique(f, 2); LookupUnique(f, 3); LookupUnique(f, 4); LookupUnique(f, 5);
  }

  /** What the `search_data` tool returns: exactly its keys, each reading back the value reported. */
  lemma SearchReply(o: Outcome)
    requires o.Found?
    ensures var f := ToJson(o).fields;
            UniqueKeys(f) && |f| == 4 &&
            Lookup(f, "success") == Some(JBool(true)) &&
            Lookup(f, "search_term") == Some(JString(o.searchTerm)) &&
            Lookup(f, "results") == Some(ResultsJson(o.results)) &&
            Lookup(f, "matches_found") == Some(JInt(o.matchesFound))
  {
    var f := ToJson(o).fields;
    assert UniqueKeys(f);
    LookupUnique(f, 0); LookupUnique(f, 1); LookupUnique(f, 2); LookupUnique(f, 3);
  }

  /** The envelope as JSON: each item is `{"type": "text", "text": ...}`, where a success's text holds
      the dictionary itself in place of its serialisation. */
  function ToolResultJson(r: ToolResult): (j: Json)
    ensures j.JObject? && Keys(j.fields) == ["content", "isError"]
    ensures Lookup(j.fields, "isError") == Some(JBool(r.isError))
  {
    var items := seq(|r.content|, i requires 0 <= i < |r.content| =>
      JObject([("type", JString("text")),
               ("text", match r.content[i] case TextContent(t) => JString(t) case JsonContent(p) => p)]));
    var fields := [("content", JArray(items)), ("isError", JBool(r.isError))];
    assert Keys(fields) == ["content", "isError"];
    JObject(fields)
  }
}

=== FILE: json.dfy ===
/** Decoded JSON values, as the server receives and produces them, and Python's truthiness of them. */
module Json {
  import opened Basics

  datatype Json =
    | JNull
    | JBool(b: bool)
    | JInt(i: int)
    | JReal(r: real)
    | JString(s: string)
    | JArray(items: seq<Json>)
    | JObject(fields: seq<(string, Json)>)

  /** An insertion-ordered dictionary, as `json.loads` builds it. */
  type Dict = seq<(string, Json)>

  /** Python's `bool(v)` for a decoded JSON value: None, False, zero and empty containers are false. */
  predicate Truthy(j: Json) {
    match j
    case JNull => false
    case JBool(b) => b
    case JInt(i) => i != 0
    case JReal(r) => r != 0.0
    case JString(s) => |s| > 0
    case JArray(items) => |items| > 0
    case JObject(fields) => |fields| > 0
  }

  /** The keys of a dictionary in insertion order (`list(d.keys())`). */
  function Keys(d: Dict): (ks: seq<string>)
    ensures |ks| == |d|
    ensures forall i :: 0 <= i < |d| ==> ks[i] == d[i].0
  {
    seq(|d|, i requires 0 <= i < |d| => d[i].0)
  }

  /** The values of a dictionary in insertion order (`list(d.values())`). */
  function Values(d: Dict): (vs: seq<Json>)
    ensures |vs| == |d|
    ensures forall i :: 0 <= i < |d| ==> vs[i] == d[i].1
  {
    seq(|d|, i requires 0 <= i < |d| => d[i].1)
  }

  /** `d.get(k)`: the value stored under the first occurrence of `k`. */
  function Lookup(d: Dict, k: string): (r: Option<Json>)
    ensures r.None? <==> k !in Keys(d)
    ensures r.Some? ==> exists i :: 0 <= i < |d| && d[i] == (k, r.value)
  {
    if |d| == 0 then None
    else if d[0].0 == k then Some(d[0].1)
    else
      var r := Lookup(d[1..], k);
      assert r.Some? ==> d[1..] <= d[1..];
      assert Keys(d) == [d[0].0] + Keys(d[1..]);
      r
  }

  /** No key occurs twice, as in every dictionary the server builds itself. */
  predicate UniqueKeys(d: Dict) {
    forall a, b :: 0 <= a < b < |d| ==> d[a].0 != d[b].0
  }

  /** In a dictionary without repeated keys, the value stored at any position is what a lookup of its
      key returns. */
  lemma LookupUnique(d: Dict, i: int)
    requires UniqueKeys(d) && 0 <= i < |d|
    ensures Lookup(d, d[i].0) == Some(d[i].1)
  {
    assert Keys(d)[i] == d[i].0;
  }
}

=== FILE: jsonrpc.dfy ===
/** The JSON-RPC 2.0 envelope: responses and error objects. */
module JsonRpc {
  import opened Basics
  import opened Json

  /** The one member a response carries besides `jsonrpc` and `id`. */
  datatype Member<R> = ResultMember(result: Option<R>) | ErrorMember(error: Json)

  datatype Reply<R> = Reply(jsonrpc: string, id: Json, member: Member<R>)

  /** `create_json_rpc_response(request_id, result=None, error=None)`. */
  function CreateResponse<R>(id: Json, result: Option<R> := None, error: Json := JNull): (r: Reply<R>)
    ensures r.jsonrpc == "2.0" && r.id == id
    ensures r.member.ErrorMember? <==> Truthy(error)
    ensures r.member.ErrorMember? ==> r.member.error == error
    ensures r.member.ResultMember? ==> r.member.result == result
  {
    Reply("2.0", id, if Truthy(error) then ErrorMember(error) else ResultMember(result))
  }

  /** The response as the JSON object sent on the wire; an absent result is `null`. */
  function Render(r: Reply<Json>): (j: Json)
    ensures j.JObject?
    ensures "result" in Keys(j.fields) <==> r.member.ResultMember?
    ensures "error" in Keys(j.fields) <==> r.member.ErrorMember?
    ensures Lookup(j.fields, "jsonrpc") == Some(JString(r.jsonrpc))
    ensures Lookup(j.fields, "id") == Some(r.id)
  {
    var head := [("jsonrpc", JString(r.jsonrpc)), ("id", r.id)];
    match r.member
    case ResultMember(res) =>
      var fields := head + [("result", if res.Some? then res.value else JNull)];
      assert Keys(fields) == ["jsonrpc", "id", "result"];
      JObject(fields)
    case ErrorMember(e) =>
      var fields := head + [("error", e)];
      assert Keys(fields) == ["jsonrpc", "id", "error"];
      JObject(fields)
  }

  /** `create_json_rpc_error(code, message, data=None)`. */
  function CreateError(code: int, message: string, data: Json := JNull): (e: Json)
    ensures e.JObject? && Truthy(e)
    ensures Keys(e.fields) == ["code", "message"] + (if data != JNull then ["data"] else [])
  {
    var base := [("code", JInt(code)), ("message", JString(message))];
    JObject(if data != JNull then base + [("data", data)] else base)
  }

  /** Reads an error object back into code, message and data (`null` when absent). */
  function ParseError(e: Json): Option<(int, string, Json)> {
    if !e.JObject? then None
    else
      match (Lookup(e.fields, "code"), Lookup(e.fields, "message"))
      case (Some(JInt(code)), Some(JString(message))) =>
        var data := Lookup(e.fields, "data");
        Some((code, message, if data.Some? then data.value else JNull))
      case _ => None
  }

  /** An error object built from code, message and data reads back as exactly those three. */
  lemma ErrorRoundTrip(code: int, message: string, data: Json)
    ensures ParseError(CreateError(code, message, data)) == Some((code, message, data))
  {
    var e := CreateError(code, message, data);
    assert Lookup(e.fields, "code") == Some(JInt(code));
    assert Lookup(e.fields[1..], "message") == Some(JString(message));
    assert Lookup(e.fields, "message") == Some(JString(message));
    if data != JNull {
      assert Lookup(e.fields[2..], "data") == Some(data);
    } else {
      assert "data" !in Keys(e.fields);
    }
  }
}

=== FILE: models.dfy ===
/** The plain data classes of the server: the protocol error, the configuration,
    the request counters and the advertised capabilities. */
module Models {
  import opened Json

  /** The Python exception classes the core raises or receives from the engine. */
  datatype ErrorKind =
    | OperationalError   // sqlite3.OperationalError, raised among others when a statement is interrupted
    | DatabaseError      // every other sqlite3 error (integrity, programming, interface, ...)
    | FileNotFoundError
    | PermissionError
    | ValueError
    | AttributeError

  /** A raised exception: the protocol's own `MCPError`, or any other Python exception. */
  datatype Exc =
    | McpError(code: int, message: string, data: Json := JNull)
    | PyError(kind: ErrorKind, message: string)
  {
    /** `str(e)`: for `MCPError` the message handed to `Exception.__init__`. */
    function Str(): string { message }
  }

  /** Constructing an `MCPError` keeps what it is given, with `data` absent by default. */
  lemma McpErrorStoresFields(code: int, message: string, data: Json)
    ensures McpError(code, message).data == JNull
    ensures var e := McpError(code, message, data); e.code == code && e.message == message && e.data == data
    ensures McpError(code, message, data).Str() == message
  {
  }

  /** The command-line options that override the configuration. */
  datatype CliArgs = CliArgs(
    host: string, port: int, logLevel: string, maxConnections: int,
    maxQueryTime: int, maxResultRows: int, daemon: bool)

  datatype ServerConfig = ServerConfig(
    host: string, port: int, logLevel: string, maxConnections: int,
    maxQueryTime: int, maxResultRows: int, daemon: bool,
    connectionTimeout: real, maxDbConnections: int)

  /** `ServerConfig()` before any command-line override. */
  function DefaultConfig(): (c: ServerConfig)
    ensures c.maxQueryTime == 60 && c.maxResultRows == 10000
    ensures c.host == "localhost" && c.port == 9999 && c.logLevel == "INFO"
    ensures c.maxConnections == 10 && !c.daemon
    ensures c.connectionTimeout == 30.0 && c.maxDbConnections == 10
  {
    ServerConfig("localhost", 9999, "INFO", 10, 60, 10000, false, 30.0, 10)
  }

  /** `update_from_args`: the seven command-line fields are overwritten, the two production settings are kept. */
  function UpdateFromArgs(c: ServerConfig, a: CliArgs): (r: ServerConfig)
    ensures r.host == a.host && r.port == a.port && r.logLevel == a.logLevel
    ensures r.maxConnections == a.maxConnections && r.daemon == a.daemon
    ensures r.maxQueryTime == a.maxQueryTime && r.maxResultRows == a.maxResultRows
    ensures r.connectionTimeout == c.connectionTimeout && r.maxDbConnections == c.maxDbConnections
  {
    c.(host := a.host, port := a.port, logLevel := a.logLevel, maxConnections := a.maxConnections,
       maxQueryTime := a.maxQueryTime, maxResultRows := a.maxResultRows, daemon := a.daemon)
  }

  /** Applying two sets of arguments in turn is the same as applying the last one. */
  lemma UpdateFromArgsLastWins(c: ServerConfig, a1: CliArgs, a2: CliArgs)
    ensures UpdateFromArgs(UpdateFromArgs(c, a1), a2) == UpdateFromArgs(c, a2)
  {
  }

  /** Process-lifetime request counters (the start time is not modelled). */
  datatype ServerStats = ServerStats(totalRequests: nat, successfulRequests: nat, failedRequests: nat)
  {
    /** `to_dict`: exactly the three counters, in this order. */
    function ToDict(): (j: Json)
      ensures j.JObject?
      ensures Keys(j.fields) == ["total_requests", "successful_requests", "failed_requests"]
      ensures Values(j.fields) == [JInt(totalRequests), JInt(successfulRequests), JInt(failedRequests)]
    {
      JObject([("total_requests", JInt(totalRequests)),
               ("successful_requests", JInt(successfulRequests)),
               ("failed_requests", JInt(failedRequests))])
    }
  }

  /** A fresh `ServerStats()`. */
  function NewStats(): (s: ServerStats)
    ensures s.totalRequests == 0 && s.successfulRequests == 0 && s.failedRequests == 0
  {
    ServerStats(0, 0, 0)
  }

  /** `ServerCapabilities().to_dict()`: tools are offered and their list never changes. */
  function Capabilities(): (j: Json)
    ensures j.JObject? && Keys(j.fields) == ["tools"]
    ensures j.fields[0].1 == JObject([("listChanged", JBool(false))])
  {
    JObject([("tools", JObject([("listChanged", JBool(false))]))])
  }
}

=== FILE: server.dfy ===
/** `SQLiteMCPServer.handle_mcp_request`: the request counters, the `initialized` gate, the three
    methods, and the mapping of every exception to a JSON-RPC error response. */
module Server {
  import opened Basics
  import opened Json
  import opened Models
  import opened JsonRpc
  import opened Database
  import opened Tools
  import opened Dispatcher

  /** The server object: the flag, the counters, the shared database manager, the tools' limits and
      the server's own copies of the configured limits. */
  datatype State = State(
    initialized: bool, stats: ServerStats, db: DbManager, limits: Limits,
    maxDbConnections: int, maxQueryTime: int, maxResultRows: int)

  /** `SQLiteMCPServer()`. */
  function NewServer(): (s: State)
    ensures !s.initialized && s.stats == NewStats() && s.db == NewDbManager()
    ensures s.limits == Limits(60, 10000)
    ensures s.maxDbConnections == 10 && s.maxQueryTime == 60 && s.maxResultRows == 10000
  {
    State(false, NewStats(), NewDbManager(), DefaultLimits(), 10, 60, 10000)
  }

  /** `update_config`: the three limits on the server, and the two the tools use, come from the
      configuration; nothing else changes. */
  function UpdateConfig(s: State, c: ServerConfig): (r: State)
    ensures r.maxDbConnections == c.maxConnections
    ensures r.maxQueryTime == c.maxQueryTime && r.maxResultRows == c.maxResultRows
    ensures r.limits == Limits(c.maxQueryTime, c.maxResultRows)
    ensures r.initialized == s.initialized && r.stats == s.stats && r.db == s.db
  {
    s.(maxDbConnections := c.maxConnections, maxQueryTime := c.maxQueryTime, maxResultRows := c.maxResultRows,
       limits := Limits(c.maxQueryTime, c.maxResultRows))
  }

  /** A configuration's limits reach the tools whatever the server held before. */
  lemma UpdateConfigReachesTools(s1: State, s2: State, c: ServerConfig)
    ensures UpdateConfig(s1, c).limits == UpdateConfig(s2, c).limits
    ensures UpdateConfig(UpdateConfig(s1, c), c) == UpdateConfig(s1, c)
  {
  }

  // ---------------------------------------------------------------- requests

  /** `params["clientInfo"]`: a dictionary (or absent), or another JSON value whose `.get` raises. */
  datatype ClientInfo = InfoObject | InfoOther(typeName: string)

  /** The fields of `params` the server reads; a missing tool name is "". */
  datatype Params = Params(protocolVersion: string, clientInfo: ClientInfo, name: string, arguments: ArgsValue)

  /** `request.get("params", {})`: a dictionary, or another JSON value whose `.get` raises. */
  datatype ParamsValue = ParamsObject(params: Params) | ParamsOther(typeName: string)

  /** A decoded request: `id` (null when absent), `method` (None when absent) and `params`. */
  datatype Request = Request(id: Json, rpcMethod: Option<string>, params: ParamsValue)

  /** What a successful method returns. */
  datatype Payload = InitializeResult(info: Json) | ToolsResult(tools: seq<ToolSpec>) | CallResult(call: ToolResult)

  /** A method that returned: the server afterwards, its result and the database accesses it made. */
  datatype Step = Step(state: State, payload: Payload, trace: seq<Event>)

  /** `handle_mcp_request`'s effect: the server afterwards, the response and the accesses made. */
  datatype Handled = Handled(state: State, reply: Reply<Payload>, trace: seq<Event>)

  /** The protocol version the server speaks. */
  const ProtocolVersion := "2025-03-26"

  /** The dictionary `initialize` returns. */
  function ServerInfo(): (j: Json)
    ensures j.JObject? && Keys(j.fields) == ["protocolVersion", "capabilities", "serverInfo"]
    ensures j.fields[0].1 == JString(ProtocolVersion)
    ensures j.fields[1].1 == Capabilities()
    ensures j.fields[2].1 == JObject([("name", JString("sqlite-mcp-server")), ("version", JString("1.0.0"))])
  {
    var fields := [("protocolVersion", JString(ProtocolVersion)), ("capabilities", Capabilities()),
                   ("serverInfo", JObject([("name", JString("sqlite-mcp-server")), ("version", JString("1.0.0"))]))];
    assert Keys(fields) == ["protocolVersion", "capabilities", "serverInfo"];
    JObject(fields)
  }

  /** `initialize`: reads the requested version and the client's name (both only for logging), then
      sets the flag; a non-dictionary `params` or `clientInfo` raises before the flag is set. */
  function Initialize(s: State, params: ParamsValue): (r: Result<Step, Exc>)
    ensures params.ParamsOther? ==> r == Err(NoGet(params.typeName))
    ensures params.ParamsObject? && params.params.clientInfo.InfoOther? ==>
              r == Err(NoGet(params.params.clientInfo.typeName))
    ensures r.Ok? ==> r.value == Step(s.(initialized := true), InitializeResult(ServerInfo()), [])
  {
    match params
    case ParamsOther(typeName) => Err(NoGet(typeName))
    case ParamsObject(p) =>
      match p.clientInfo
      case InfoOther(typeName) => Err(NoGet(typeName))
      case InfoObject => Ok(Step(s.(initialized := true), InitializeResult(ServerInfo()), []))
  }

  /** The requested protocol version has no effect on the reply. */
  lemma InitializeIgnoresVersion(s: State, p: Params, version: string)
    ensures Initialize(s, ParamsObject(p)) == Initialize(s, ParamsObject(p.(protocolVersion := version)))
  {
  }

  /** `call_tool`: a missing name is refused, anything else goes to `execute_tool`, which never raises. */
  function CallTool(s: State, e: Engine, params: ParamsValue): (r: Result<Step, Exc>)
    ensures params.ParamsOther? ==> r == Err(NoGet(params.typeName))
    ensures params.ParamsObject? && params.params.name == "" ==> r == Err(McpError(-32602, "Tool name is required"))
    ensures params.ParamsObject? && params.params.name != "" ==>
              var d := ExecuteTool(e, s.db, s.limits, params.params.name, params.params.arguments);
              r == Ok(Step(s.(db := d.manager), CallResult(d.result), d.trace))
  {
    match params
    case ParamsOther(typeName) => Err(NoGet(typeName))
    case ParamsObject(p) =>
      if p.name == "" then Err(McpError(-32602, "Tool name is required"))
      else
        var d := ExecuteTool(e, s.db, s.limits, p.name, p.arguments);
        Ok(Step(s.(db := d.manager), CallResult(d.result), d.trace))
  }

  /** `f"{method}"`: an absent method prints as `None`. */
  function MethodText(m: Option<string>): string {
    if m.Some? then m.value else "None"
  }

  /** The body of the `try`: route by method, gating the tool methods on the flag. */
  function Route(s: State, e: Engine, req: Request): (r: Result<Step, Exc>)
    ensures r.Ok? ==> r.value.state.stats == s.stats
    ensures r.Ok? && r.value.state.initialized != s.initialized ==> req.rpcMethod == Some("initialize")
    ensures r.Ok? ==> s.initialized ==> r.value.state.initialized
  {
    if req.rpcMethod == Some("initialize") then Initialize(s, req.params)
    else if req.rpcMethod == Some("tools/list") then
      if !s.initialized then Err(McpError(-32002, "Server not initialized"))
      else Ok(Step(s, ToolsResult(Catalog()), []))
    else if req.rpcMethod == Some("tools/call") then
      if !s.initialized then Err(McpError(-32002, "Server not initialized"))
      else CallTool(s, e, req.params)
    else Err(McpError(-32601, "Method not found: " + MethodText(req.rpcMethod)))
  }

  /** The error object for an exception: an `MCPError` keeps its own code, message and data, anything
      else becomes -32603 "Internal error" with the exception text as data. */
  function ErrorObject(x: Exc): (j: Json)
    ensures Truthy(j)
    ensures x.McpError? ==> ParseError(j) == Some((x.code, x.message, x.data))
    ensures x.PyError? ==> ParseError(j) == Some((-32603, "Internal error", JString(x.message)))
  {
    match x
    case McpError(code, message, data) =>
      ErrorRoundTrip(code, message, data);
      CreateError(code, message, data)
    case PyError(_, message) =>
      ErrorRoundTrip(-32603, "Internal error", JString(message));
      CreateError(-32603, "Internal error", JString(message))
  }

  /** `handle_mcp_request`. Every request bumps `total_requests` and exactly one of the success and
      failure counters; a response carries a result exactly when the success counter moved. */
  function HandleRequest(s: State, e: Engine, req: Request): (h: Handled)
    ensures h.reply.jsonrpc == "2.0" && h.reply.id == req.id
    ensures h.state.stats.totalRequests == s.stats.totalRequests + 1
    ensures h.reply.member.ResultMember? ==>
              h.state.stats.successfulRequests == s.stats.successfulRequests + 1 &&
              h.state.stats.failedRequests == s.stats.failedRequests
    ensures h.reply.member.ErrorMember? ==>
              h.state.stats.successfulRequests == s.stats.successfulRequests &&
              h.state.stats.failedRequests == s.stats.failedRequests + 1
    ensures h.reply.member.ErrorMember? ==> h.trace == [] && h.state.initialized == s.initialized && h.state.db == s.db
    ensures s.initialized ==> h.state.initialized
    ensures h.state.initialized != s.initialized ==> req.rpcMethod == Some("initialize")
  {
    var counted := s.(stats := s.stats.(totalRequests := s.stats.totalRequests + 1));
    match Route(counted, e, req)
    case Ok(step) =>
      var done := step.state.(stats := step.state.stats.(successfulRequests := step.state.stats.successfulRequests + 1));
      Handled(done, CreateResponse(req.id, Some(step.payload)), step.trace)
    case Err(x) =>
      var failed := counted.(stats := counted.stats.(failedRequests := counted.stats.failedRequests + 1));
      Handled(failed, CreateResponse(req.id, error := ErrorObject(x)), [])
  }

  /** Before `initialize`, both tool methods are refused with -32002 and touch nothing. */
  lemma GateBeforeInitialize(s: State, e: Engine, req: Request)
    requires !s.initialized && req.rpcMethod in {Some("tools/list"), Some("tools/call")}
    ensures HandleRequest(s, e, req).reply.member == ErrorMember(CreateError(-32002, "Server not initialized"))
    ensures !HandleRequest(s, e, req).state.initialized && HandleRequest(s, e, req).trace == []
  {
  }

  /** Any method outside the three known ones is -32601, naming the method. */
  lemma UnknownMethod(s: State, e: Engine, req: Request)
    requires req.rpcMethod !in {Some("initialize"), Some("tools/list"), Some("tools/call")}
    ensures HandleRequest(s, e, req).reply.member ==
              ErrorMember(CreateError(-32601, "Method not found: " + MethodText(req.rpcMethod)))
  {
  }

  /** A well-formed `initialize` always succeeds, sets the flag, and replies with the server's own
      protocol version. */
  lemma InitializeReply(s: State, e: Engine, req: Request)
    requires req.rpcMethod == Some("initialize") && req.params.ParamsObject? && req.params.params.clientInfo.InfoObject?
    ensures var h := HandleRequest(s, e, req);
            h.state.initialized && h.reply.member == ResultMember(Some(InitializeResult(ServerInfo())))
  {
  }

  /** After initialisation a named tool call is always a successful request, even when the tool
      failed: the tool's failure is inside the result's `isError`. */
  lemma CallAfterInitialize(s: State, e: Engine, req: Request)
    requires s.initialized && req.rpcMethod == Some("tools/call")
    requires req.params.ParamsObject? && req.params.params.name != ""
    ensures var h := HandleRequest(s, e, req);
            var d := ExecuteTool(e, s.db, s.limits, req.params.params.name, req.params.params.arguments);
            h.reply.member == ResultMember(Some(CallResult(d.result))) &&
            h.state.stats.successfulRequests == s.stats.successfulRequests + 1 &&
            h.state.db == d.manager && h.trace == d.trace
  {
  }

  // ---------------------------------------------------------------- sequences of requests

  /** The server after handling the requests in order. */
  function RunRequests(s: State, e: Engine, reqs: seq<Request>): State
    decreases |reqs|
  {
    if |reqs| == 0 then s else RunRequests(HandleRequest(s, e, reqs[0]).state, e, reqs[1..])
  }

  /** `total == successful + failed` holds from a fresh server on, and `total` counts the requests. */
  lemma {:induction false} CountersBalance(s: State, e: Engine, reqs: seq<Request>)
    requires s.stats.totalRequests == s.stats.successfulRequests + s.stats.failedRequests
    ensures var t := RunRequests(s, e, reqs).stats;
            t.totalRequests == t.successfulRequests + t.failedRequests &&
            t.totalRequests == s.stats.totalRequests + |reqs|
    decreases |reqs|
  {
    if |reqs| > 0 {
      CountersBalance(HandleRequest(s, e, reqs[0]).state, e, reqs[1..]);
    }
  }

  /** Once set, the flag is never cleared. */
  lemma {:induction false} InitializedStays(s: State, e: Engine, reqs: seq<Request>)
    requires s.initialized
    ensures RunRequests(s, e, reqs).initialized
    decreases |reqs|
  {
    if |reqs| > 0 {
      InitializedStays(HandleRequest(s, e, reqs[0]).state, e, reqs[1..]);
    }
  }

  /** Without an `initialize` request the flag never becomes set. */
  lemma {:induction false} OnlyInitializeSetsFlag(s: State, e: Engine, reqs: seq<Request>)
    requires !s.initialized
    requires forall i :: 0 <= i < |reqs| ==> reqs[i].rpcMethod != Some("initialize")
    ensures !RunRequests(s, e, reqs).initialized
    decreases |reqs|
  {
    if |reqs| > 0 {
      OnlyInitializeSetsFlag(HandleRequest(s, e, reqs[0]).state, e, reqs[1..]);
    }
  }

  // ---------------------------------------------------------------- the wire form

  /** One entry of `tools/list`: the name, and an input schema whose `required` key is present only for a
      tool with required arguments (`get_tables` has none and no such key). */
  function ToolJson(t: ToolSpec): (j: Json)
    ensures j.JObject? && Keys(j.fields) == ["name", "inputSchema"]
    ensures j.fields[0].1 == JString(t.name)
    ensures var schema := j.fields[1].1;
            schema.JObject? &&
            ("required" in Keys(schema.fields) <==> |t.required| > 0) &&
            (|t.required| > 0 ==> Lookup(schema.fields, "required") == Some(StringsJson(t.required)))
  {
    var required := if |t.required| == 0 then [] else [("required", StringsJson(t.required))];
    assert Keys(required) == if |t.required| == 0 then [] else ["required"];
    var fields := [("name", JString(t.name)), ("inputSchema", JObject(required))];
    assert Keys(fields) == ["name", "inputSchema"];
    JObject(fields)
  }

  function PayloadJson(p: Payload): Json {
    match p
    case InitializeResult(info) => info
    case ToolsResult(tools) => JObject([("tools", JArray(seq(|tools|, i requires 0 <= i < |tools| => ToolJson(tools[i]))))])
    case CallResult(call) => ToolResultJson(call)
  }

  /** The response object as sent: always `jsonrpc` and `id`, and exactly one of `result` and `error`. */
  function ReplyJson(r: Reply<Payload>): (j: Json)
    ensures j.JObject?
    ensures Lookup(j.fields, "jsonrpc") == Some(JString("2.0")) || r.jsonrpc != "2.0"
    ensures ("result" in Keys(j.fields)) != ("error" in Keys(j.fields))
  {
    var member := match r.member
      case ResultMember(res) => ResultMember(if res.Some? then Some(PayloadJson(res.value)) else None)
      case ErrorMember(err) => ErrorMember(err);
    Render(Reply(r.jsonrpc, r.id, member))
  }
}

=== FILE: statements.dfy ===
/** The SQL text and positional bind list each structured tool builds. Table and column names,
    `order_by`, `limit` and `offset` are spliced into the text as given; the `data` and `where` values
    travel in the bind list. */
module Statements {
  import opened Json
  import opened Text

  /** SQL text plus the values bound, in order, to its `?` placeholders. */
  datatype Statement = Statement(sql: string, binds: seq<Json>)

  /** `[f"{key} = ?" for key in d]`. */
  function Conditions(d: Dict): (cs: seq<string>)
    ensures |cs| == |d|
    ensures forall i :: 0 <= i < |d| ==> cs[i] == d[i].0 + " = ?"
  {
    seq(|d|, i requires 0 <= i < |d| => d[i].0 + " = ?")
  }

  /** `["?" for _ in columns]`. */
  function Placeholders(n: nat): (ps: seq<string>)
    ensures |ps| == n && forall i :: 0 <= i < n ==> ps[i] == "?"
  {
    seq(n, _ => "?")
  }

  function WhereClause(where: Dict): string {
    if |where| == 0 then "" else " WHERE " + Join(Conditions(where), " AND ")
  }

  function OrderClause(orderBy: string): string {
    if orderBy == "" then "" else " ORDER BY " + orderBy
  }

  /** ` LIMIT n`, and ` OFFSET m` only after a limit; 0 stands for an absent (falsy) value. */
  function LimitClause(limit: int, offset: int): string {
    if limit == 0 then ""
    else " LIMIT " + IntToString(limit) + (if offset == 0 then "" else " OFFSET " + IntToString(offset))
  }

  /** The `create` statement. */
  function Insert(table: string, data: Dict): (s: Statement)
    ensures s.binds == Values(data)
  {
    Statement("INSERT INTO " + table + " (" + Join(Keys(data), ", ") + ") VALUES ("
              + Join(Placeholders(|data|), ", ") + ")",
              Values(data))
  }

  /** The `read` statement. */
  function Select(table: string, where: Dict, orderBy: string, limit: int, offset: int): (s: Statement)
    ensures s.binds == Values(where)
  {
    Statement("SELECT * FROM " + table + WhereClause(where) + OrderClause(orderBy) + LimitClause(limit, offset),
              Values(where))
  }

  /** The `update` statement: assignments then conditions, binding data values before where values. */
  function Update(table: string, data: Dict, where: Dict): (s: Statement)
    ensures s.binds == Values(data) + Values(where)
  {
    Statement("UPDATE " + table + " SET " + Join(Conditions(data), ", ") + " WHERE "
              + Join(Conditions(where), " AND "),
              Values(data) + Values(where))
  }

  /** The `delete` statement. */
  function Delete(table: string, where: Dict): (s: Statement)
    ensures s.binds == Values(where)
  {
    Statement("DELETE FROM " + table + " WHERE " + Join(Conditions(where), " AND "), Values(where))
  }

  /** The per-table `search_data` statement: any text column LIKE the wildcarded term, at most 10 rows. */
  function Search(table: string, textColumns: seq<string>, term: string): (s: Statement)
    ensures |s.binds| == |textColumns|
    ensures forall i :: 0 <= i < |s.binds| ==> s.binds[i] == JString("%" + term + "%")
  {
    Statement("SELECT * FROM " + table + " WHERE " + Join(Likes(textColumns), " OR ") + " LIMIT 10",
              seq(|textColumns|, _ => JString("%" + term + "%")))
  }

  /** `[f"{col} LIKE ?" for col in text_columns]`. */
  function Likes(columns: seq<string>): (ls: seq<string>)
    ensures |ls| == |columns|
    ensures forall i :: 0 <= i < |columns| ==> ls[i] == columns[i] + " LIKE ?"
  {
    seq(|columns|, i requires 0 <= i < |columns| => columns[i] + " LIKE ?")
  }

  /** The catalog query listing the tables of a database. */
  const ListTablesSql := "SELECT name FROM sqlite_master WHERE type='table'"

  /** The catalog query listing the columns of one table. */
  function TableInfoSql(table: string): string {
    "PRAGMA table_info(" + table + ")"
  }

  // ---------------------------------------------------------------- placeholders match binds

  /** None of the given names holds a `?`. */
  predicate NoMarks(names: seq<string>) {
    forall i :: 0 <= i < |names| ==> Count(names[i], '?') == 0
  }

  lemma ConditionsJoinCount(d: Dict, sep: string)
    requires NoMarks(Keys(d)) && Count(sep, '?') == 0
    ensures Count(Join(Conditions(d), sep), '?') == |d|
  {
    forall i | 0 <= i < |d|
      ensures Count(Conditions(d)[i], '?') == 1
    {
      CountConcat(d[i].0, " = ?", '?');
      assert Count(" = ?", '?') == 1;
    }
    CountJoin(Conditions(d), sep, '?', true);
  }

  lemma PlaceholdersJoinCount(n: nat)
    ensures Count(Join(Placeholders(n), ", "), '?') == n
  {
    CountAbsent(", ", '?');
    assert Count("?", '?') == 1;
    CountJoin(Placeholders(n), ", ", '?', true);
  }

  lemma NamesJoinCount(names: seq<string>)
    requires NoMarks(names)
    ensures Count(Join(names, ", "), '?') == 0
  {
    CountAbsent(", ", '?');
    CountJoin(names, ", ", '?', false);
  }

  lemma InsertTextCount(table: string, columns: string, marks: string)
    ensures Count("INSERT INTO " + table + " (" + columns + ") VALUES (" + marks + ")", '?')
         == Count(table, '?') + Count(columns, '?') + Count(marks, '?')
  {
    CountFramed("INSERT INTO ", table, " (", columns, ") VALUES (", '?');
    CountConcat("INSERT INTO " + table + " (" + columns + ") VALUES (", marks, '?');
    CountSuffixFree("INSERT INTO " + table + " (" + columns + ") VALUES (" + marks, ")", '?');
  }

  /** When no table or column name holds a `?`, the `create` text has exactly one placeholder per bound value. */
  lemma InsertPlaceholders(table: string, data: Dict)
    requires Count(table, '?') == 0 && NoMarks(Keys(data))
    ensures Count(Insert(table, data).sql, '?') == |Insert(table, data).binds| == |data|
  {
    NamesJoinCount(Keys(data));
    PlaceholdersJoinCount(|data|);
    InsertTextCount(table, Join(Keys(data), ", "), Join(Placeholders(|data|), ", "));
  }

  lemma WhereClauseCount(where: Dict)
    requires NoMarks(Keys(where))
    ensures Count(WhereClause(where), '?') == |where|
  {
    if |where| > 0 {
      CountAbsent(" AND ", '?');
      CountAbsent(" WHERE ", '?');
      ConditionsJoinCount(where, " AND ");
      CountConcat(" WHERE ", Join(Conditions(where), " AND "), '?');
    }
  }

  lemma OrderClauseCount(orderBy: string)
    requires Count(orderBy, '?') == 0
    ensures Count(OrderClause(orderBy), '?') == 0
  {
    if orderBy != "" {
      CountAbsent(" ORDER BY ", '?');
      CountConcat(" ORDER BY ", orderBy, '?');
    }
  }

  lemma LimitClauseCount(limit: int, offset: int)
    ensures Count(LimitClause(limit, offset), '?') == 0
  {
    if limit != 0 {
      IntToStringCount(limit, '?');
      IntToStringCount(offset, '?');
      CountAbsent(" LIMIT ", '?');
      CountAbsent(" OFFSET ", '?');
      var l := " LIMIT " + IntToString(limit);
      var o := if offset == 0 then "" else " OFFSET " + IntToString(offset);
      CountConcat(" LIMIT ", IntToString(limit), '?');
      CountConcat(" OFFSET ", IntToString(offset), '?');
      CountConcat(l, o, '?');
    }
  }

  /** When no name and no ordering text holds a `?`, the `read` text has one placeholder per bound value. */
  lemma SelectPlaceholders(table: string, where: Dict, orderBy: string, limit: int, offset: int)
    requires Count(table, '?') == 0 && NoMarks(Keys(where)) && Count(orderBy, '?') == 0
    ensures Count(Select(table, where, orderBy, limit, offset).sql, '?') == |where|
  {
    var w := WhereClause(where);
    var o := OrderClause(orderBy);
    var l := LimitClause(limit, offset);
    WhereClauseCount(where);
    OrderClauseCount(orderBy);
    LimitClauseCount(limit, offset);
    CountAbsent("SELECT * FROM ", '?');
    CountConcat("SELECT * FROM ", table, '?');
    CountConcat("SELECT * FROM " + table, w, '?');
    CountConcat("SELECT * FROM " + table + w, o, '?');
    CountConcat("SELECT * FROM " + table + w + o, l, '?');
  }

  /** When no name holds a `?`, the `update` text has |data| + |where| placeholders, one per bound value. */
  lemma UpdatePlaceholders(table: string, data: Dict, where: Dict)
    requires Count(table, '?') == 0 && NoMarks(Keys(data)) && NoMarks(Keys(where))
    ensures Count(Update(table, data, where).sql, '?') == |data| + |where| == |Update(table, data, where).binds|
  {
    var a := "UPDATE " + table + " SET ";
    var b := Join(Conditions(data), ", ");
    var d := Join(Conditions(where), " AND ");
    CountAbsent("UPDATE ", '?');
    CountAbsent(" SET ", '?');
    CountAbsent(", ", '?');
    CountAbsent(" WHERE ", '?');
    CountAbsent(" AND ", '?');
    ConditionsJoinCount(data, ", ");
    ConditionsJoinCount(where, " AND ");
    CountConcat("UPDATE ", table, '?');
    CountConcat("UPDATE " + table, " SET ", '?');
    CountConcat(a, b, '?');
    CountConcat(a + b, " WHERE ", '?');
    CountConcat(a + b + " WHERE ", d, '?');
  }

  /** When no name holds a `?`, the `delete` text has one placeholder per bound value. */
  lemma DeletePlaceholders(table: string, where: Dict)
    requires Count(table, '?') == 0 && NoMarks(Keys(where))
    ensures Count(Delete(table, where).sql, '?') == |where| == |Delete(table, where).binds|
  {
    CountAbsent(" AND ", '?');
    CountAbsent(" WHERE ", '?');
    CountAbsent("DELETE FROM ", '?');
    ConditionsJoinCount(where, " AND ");
    Count4("DELETE FROM ", table, " WHERE ", Join(Conditions(where), " AND "), '?');
  }

  lemma LikesJoinCount(columns: seq<string>)
    requires NoMarks(columns)
    ensures Count(Join(Likes(columns), " OR "), '?') == |columns|
  {
    forall i | 0 <= i < |columns|
      ensures Count(Likes(columns)[i], '?') == 1
    {
      CountConcat(columns[i], " LIKE ?", '?');
      assert Count(" LIKE ?", '?') == 1;
    }
    CountAbsent(" OR ", '?');
    CountJoin(Likes(columns), " OR ", '?', true);
  }

  lemma SearchTextCount(table: string, likes: string)
    ensures Count("SELECT * FROM " + table + " WHERE " + likes + " LIMIT 10", '?') == Count(table, '?') + Count(likes, '?')
  {
    CountFramed("SELECT * FROM ", table, " WHERE ", likes, " LIMIT 10", '?');
  }

  /** When no name holds a `?`, the search text has one placeholder per text column. */
  lemma SearchPlaceholders(table: string, textColumns: seq<string>, term: string)
    requires Count(table, '?') == 0 && NoMarks(textColumns)
    ensures Count(Search(table, textColumns, term).sql, '?') == |textColumns|
  {
    LikesJoinCount(textColumns);
    SearchTextCount(table, Join(Likes(textColumns), " OR "));
  }

  // ---------------------------------------------------------------- lists follow the key order

  /** No key holds a comma, so the comma-separated lists split back into their items. */
  predicate CommaFree(d: Dict) {
    forall i :: 0 <= i < |d| ==> ',' !in d[i].0
  }

  /** The `create` statement names the columns in the data's key order, with one `?` for each. */
  lemma InsertColumns(table: string, data: Dict)
    requires |data| > 0 && CommaFree(data)
    ensures exists columns, marks ::
              Insert(table, data).sql == "INSERT INTO " + table + " (" + columns + ") VALUES (" + marks + ")" &&
              Split(columns, ", ") == Keys(data) && Split(marks, ", ") == Placeholders(|data|)
    ensures forall i :: 0 <= i < |data| ==> Insert(table, data).binds[i] == data[i].1
  {
    var columns, marks := Join(Keys(data), ", "), Join(Placeholders(|data|), ", ");
    SplitJoin(Keys(data), ", ");
    SplitJoin(Placeholders(|data|), ", ");
    assert Insert(table, data).sql == "INSERT INTO " + table + " (" + columns + ") VALUES (" + marks + ")";
  }

  /** The `update` statement assigns the columns in the data's key order. */
  lemma UpdateAssignments(table: string, data: Dict, where: Dict)
    requires |data| > 0 && CommaFree(data)
    ensures exists assignments, conditions ::
              Update(table, data, where).sql == "UPDATE " + table + " SET " + assignments + " WHERE " + conditions &&
              Split(assignments, ", ") == Conditions(data)
    ensures forall i :: 0 <= i < |data| ==> Update(table, data, where).binds[i] == data[i].1
  {
    var assignments := Join(Conditions(data), ", ");
    forall i | 0 <= i < |data|
      ensures ',' !in Conditions(data)[i]
    {
      assert Conditions(data)[i] == data[i].0 + " = ?";
    }
    SplitJoin(Conditions(data), ", ");
    assert Update(table, data, where).sql ==
           "UPDATE " + table + " SET " + assignments + " WHERE " + Join(Conditions(where), " AND ");
  }

  /** The search statement is `SELECT * FROM table WHERE` followed by the `LIKE` terms joined with
      ` OR `, capped at ten rows. */
  lemma SearchShape(table: string, textColumns: seq<string>, term: string)
    ensures var sql := Search(table, textColumns, term).sql;
            var head := "SELECT * FROM " + table + " WHERE ";
            StartsWith(sql, head) && |head| + 9 <= |sql| &&
            sql[|sql| - 9..] == " LIMIT 10" &&
            sql[|head|..|sql| - 9] == Join(Likes(textColumns), " OR ")
  {
    var head := "SELECT * FROM " + table + " WHERE ";
    var likes := Join(Likes(textColumns), " OR ");
    var sql := Search(table, textColumns, term).sql;
    assert sql == head + likes + " LIMIT 10";
    PrefixStarts(head, likes + " LIMIT 10");
    assert sql[|head|..|sql| - 9] == likes;
  }

  /** `read`, `update` and `delete` filter with the same ` WHERE` clause and bind the same values
      to it; only `read` may drop it, and then only for an empty `where`. */
  lemma SameFilter(table: string, data: Dict, where: Dict)
    requires |where| > 0
    ensures Delete(table, where).sql == "DELETE FROM " + table + WhereClause(where)
    ensures Select(table, where, "", 0, 0).sql == "SELECT * FROM " + table + WhereClause(where)
    ensures var u := Update(table, data, where).sql;
            |WhereClause(where)| <= |u| && u[|u| - |WhereClause(where)|..] == WhereClause(where)
    ensures Delete(table, where).binds == Select(table, where, "", 0, 0).binds == Update(table, data, where).binds[|data|..]
    ensures forall j :: 0 <= j < |where| ==> Delete(table, where).binds[j] == where[j].1
  {
    var u := Update(table, data, where).sql;
    var w := WhereClause(where);
    assert u == "UPDATE " + table + " SET " + Join(Conditions(data), ", ") + w;
  }

  /** ` ORDER BY` carries the caller's text verbatim, right after the filter. */
  lemma OrderFollowsFilter(table: string, where: Dict, orderBy: string, limit: int, offset: int)
    requires orderBy != ""
    ensures StartsWith(Select(table, where, orderBy, limit, offset).sql,
                       "SELECT * FROM " + table + WhereClause(where) + " ORDER BY " + orderBy)
  {
    var filtered := "SELECT * FROM " + table + WhereClause(where);
    var head := filtered + OrderClause(orderBy);
    assert head == filtered + " ORDER BY " + orderBy;
    PrefixStarts(head, LimitClause(limit, offset));
  }

  // ---------------------------------------------------------------- bound values never reach the text

  /** For fixed keys, `order_by`, `limit` and `offset`, the text does not depend on the `data` and
      `where` values: changing any bound value leaves it unchanged. */
  lemma TextIgnoresValues(table: string, d1: Dict, d2: Dict, w1: Dict, w2: Dict, orderBy: string, limit: int, offset: int)
    requires Keys(d1) == Keys(d2) && Keys(w1) == Keys(w2)
    ensures Insert(table, d1).sql == Insert(table, d2).sql
    ensures Select(table, w1, orderBy, limit, offset).sql == Select(table, w2, orderBy, limit, offset).sql
    ensures Update(table, d1, w1).sql == Update(table, d2, w2).sql
    ensures Delete(table, w1).sql == Delete(table, w2).sql
  {
    assert Conditions(d1) == Conditions(d2) by {
      forall i | 0 <= i < |d1| ensures Conditions(d1)[i] == Conditions(d2)[i] {
        assert Keys(d1)[i] == Keys(d2)[i];
      }
    }
    assert Conditions(w1) == Conditions(w2) by {
      forall i | 0 <= i < |w1| ensures Conditions(w1)[i] == Conditions(w2)[i] {
        assert Keys(w1)[i] == Keys(w2)[i];
      }
    }
  }

  // ---------------------------------------------------------------- shape of the read statement

  /** The read text starts with the table scan; a WHERE clause follows exactly when `where` is non-empty,
      and an ORDER BY clause appears exactly when `order_by` is non-empty. */
  lemma SelectShape(table: string, where: Dict, orderBy: string, limit: int, offset: int)
    ensures StartsWith(Select(table, where, orderBy, limit, offset).sql, "SELECT * FROM " + table + WhereClause(where))
    ensures WhereClause(where) == "" <==> |where| == 0
    ensures |where| > 0 ==> StartsWith(WhereClause(where), " WHERE ")
    ensures |where| == 0 && orderBy == "" && limit == 0 ==> Select(table, where, orderBy, limit, offset).sql == "SELECT * FROM " + table
    ensures orderBy == "" ==>
              Select(table, where, orderBy, limit, offset).sql == "SELECT * FROM " + table + WhereClause(where) + LimitClause(limit, offset)
    ensures orderBy != "" ==> Select(table, where, orderBy, limit, offset).sql != Select(table, where, "", limit, offset).sql
  {
    var s := Select(table, where, orderBy, limit, offset).sql;
    var p := "SELECT * FROM " + table + WhereClause(where);
    assert s[..|p|] == p;
    if orderBy != "" {
      assert |s| > |Select(table, where, "", limit, offset).sql|;
    }
  }

  /** An offset without a limit is dropped: the statement is the same as with no offset at all. */
  lemma OffsetNeedsLimit(table: string, where: Dict, orderBy: string, offset: int)
    ensures Select(table, where, orderBy, 0, offset) == Select(table, where, orderBy, 0, 0)
  {
  }

  /** With a limit, the text ends in ` LIMIT n`, followed by ` OFFSET m` exactly when the offset is
      non-zero; both numbers read back as the caller's values. */
  lemma SelectPaging(table: string, where: Dict, orderBy: string, limit: int, offset: int)
    requires limit != 0
    ensures var s := Select(table, where, orderBy, limit, offset).sql;
            var tail := " LIMIT " + IntToString(limit) + (if offset == 0 then "" else " OFFSET " + IntToString(offset));
            |tail| <= |s| && s[|s| - |tail|..] == tail
    ensures ParseInt(IntToString(limit)) == limit && ParseInt(IntToString(offset)) == offset
  {
    IntRoundTrip(limit);
    IntRoundTrip(offset);
  }
}

=== FILE: text.dfy ===
/** The Python string operations the core relies on: `strip`, `upper`, `lower`, `startswith`,
    the substring test `in`, `str.join` and `str(int)`. */
module Text {

  /** Python's `str.isspace` for one character (the Basic Multilingual Plane whitespace set). */
  predicate IsSpace(c: char) {
    c == ' ' || '\t' <= c <= '\r' || '\U{1c}' <= c <= '\U{1f}' || c == '\U{85}' || c == '\U{a0}'
    || c == '\U{1680}' || '\U{2000}' <= c <= '\U{200a}' || c == '\U{2028}' || c == '\U{2029}'
    || c == '\U{202f}' || c == '\U{205f}' || c == '\U{3000}'
  }

  function UpperChar(c: char): (u: char)
    ensures IsSpace(u) <==> IsSpace(c)
    ensures !('a' <= u <= 'z')
  {
    if 'a' <= c <= 'z' then (c as int - 32) as char else c
  }

  function LowerChar(c: char): (l: char)
    ensures !('A' <= l <= 'Z')
  {
    if 'A' <= c <= 'Z' then (c as int + 32) as char else c
  }

  /** `s.upper()`, restricted to ASCII letters. */
  function Upper(s: string): (u: string)
    ensures |u| == |s|
    ensures forall i :: 0 <= i < |s| ==> u[i] == UpperChar(s[i])
  {
    seq(|s|, i requires 0 <= i < |s| => UpperChar(s[i]))
  }

  /** `s.lower()`, restricted to ASCII letters. */
  function Lower(s: string): (l: string)
    ensures |l| == |s|
    ensures forall i :: 0 <= i < |s| ==> l[i] == LowerChar(s[i])
  {
    seq(|s|, i requires 0 <= i < |s| => LowerChar(s[i]))
  }

  lemma UpperAppend(a: string, b: string)
    ensures Upper(a + b) == Upper(a) + Upper(b)
  {
  }

  lemma UpperSlice(s: string, i: int, j: int)
    requires 0 <= i <= j <= |s|
    ensures Upper(s[i..j]) == Upper(s)[i..j]
  {
  }

  /** `s.lstrip()`: drops exactly the maximal leading run of whitespace. */
  function StripStart(s: string): (r: string)
    ensures |r| <= |s| && r == s[|s| - |r|..]
    ensures |r| > 0 ==> !IsSpace(r[0])
    ensures forall i :: 0 <= i < |s| - |r| ==> IsSpace(s[i])
  {
    if |s| > 0 && IsSpace(s[0]) then StripStart(s[1..]) else s
  }

  /** `s.rstrip()`: drops exactly the maximal trailing run of whitespace. */
  function StripEnd(s: string): (r: string)
    ensures |r| <= |s| && r == s[..|r|]
    ensures |r| > 0 ==> !IsSpace(r[|r| - 1])
    ensures forall i :: |r| <= i < |s| ==> IsSpace(s[i])
  {
    if |s| > 0 && IsSpace(s[|s| - 1]) then StripEnd(s[..|s| - 1]) else s
  }

  /** `s.strip()`. */
  function Strip(s: string): string {
    StripEnd(StripStart(s))
  }

  /** Strip keeps one contiguous slice of its input and removes only whitespace around it. */
  lemma StripBounds(s: string) returns (a: nat, b: nat)
    ensures a <= b <= |s| && Strip(s) == s[a..b]
    ensures forall i :: 0 <= i < a ==> IsSpace(s[i])
    ensures forall i :: b <= i < |s| ==> IsSpace(s[i])
  {
    var t := StripStart(s);
    a := |s| - |t|;
    var r := StripEnd(t);
    b := a + |r|;
    assert t == s[a..];
    forall i | b <= i < |s|
      ensures IsSpace(s[i])
    {
      assert s[i] == t[i - a];
    }
  }

  /** Upper-casing never turns a character into whitespace or back, so it commutes with `lstrip`. */
  lemma {:induction false} StripStartUpper(s: string)
    ensures StripStart(Upper(s)) == Upper(StripStart(s))
  {
    if |s| > 0 && IsSpace(s[0]) {
      assert Upper(s)[1..] == Upper(s[1..]);
      StripStartUpper(s[1..]);
    }
  }

  lemma {:induction false} StripEndUpper(s: string)
    ensures StripEnd(Upper(s)) == Upper(StripEnd(s))
  {
    if |s| > 0 && IsSpace(s[|s| - 1]) {
      assert Upper(s)[..|s| - 1] == Upper(s[..|s| - 1]);
      StripEndUpper(s[..|s| - 1]);
    }
  }

  /** `s.strip().upper() == s.upper().strip()`. */
  lemma StripUpper(s: string)
    ensures Strip(Upper(s)) == Upper(Strip(s))
  {
    StripStartUpper(s);
    StripEndUpper(StripStart(s));
  }

  /** Leading whitespace is invisible to `lstrip`. */
  lemma {:induction false} StripStartPadding(pad: string, s: string)
    requires forall i :: 0 <= i < |pad| ==> IsSpace(pad[i])
    ensures StripStart(pad + s) == StripStart(s)
  {
    if |pad| > 0 {
      assert (pad + s)[1..] == pad[1..] + s;
      StripStartPadding(pad[1..], s);
    } else {
      assert pad + s == s;
    }
  }

  /** `s.startswith(p)`. */
  predicate StartsWith(s: string, p: string) {
    |p| <= |s| && s[..|p|] == p
  }

  lemma PrefixStarts(p: string, rest: string)
    ensures StartsWith(p + rest, p)
  {
    assert (p + rest)[..|p|] == p;
  }

  /** `p` occurs in `s` at offset `i`. */
  predicate OccursAt(s: string, p: string, i: int) {
    0 <= i && i + |p| <= |s| && s[i..i + |p|] == p
  }

  /** The reference meaning of Python's `p in s`: some offset holds an occurrence. */
  ghost predicate Occurs(s: string, p: string) {
    exists i :: OccursAt(s, p, i)
  }

  /** Python's substring test `p in s`, computed by scanning offsets left to right. */
  function Contains(s: string, p: string): (r: bool)
    ensures r <==> Occurs(s, p)
    decreases |s|
  {
    if |s| < |p| then
      assert forall i :: !OccursAt(s, p, i);
      false
    else if StartsWith(s, p) then
      assert OccursAt(s, p, 0);
      true
    else
      var r := Contains(s[1..], p);
      if r then
        var i :| OccursAt(s[1..], p, i);
        assert OccursAt(s, p, i + 1) by {
          assert s[i + 1..i + 1 + |p|] == s[1..][i..i + |p|];
        }
        true
      else
        forall i | 0 < i && i + |p| <= |s|
          ensures !OccursAt(s, p, i)
        {
          assert !OccursAt(s[1..], p, i - 1);
          assert s[1..][i - 1..i - 1 + |p|] == s[i..i + |p|];
        }
        assert !OccursAt(s, p, 0);
        false
  }

  /** Appending text on either side never removes an occurrence. */
  lemma {:induction false} OccursExtend(s: string, p: string, before: string, after: string)
    requires Occurs(s, p)
    ensures Occurs(before + s + after, p)
  {
    var i :| OccursAt(s, p, i);
    var t := before + s + after;
    assert t[|before| + i..|before| + i + |p|] == s[i..i + |p|];
    assert OccursAt(t, p, |before| + i);
  }

  /** The number of occurrences of character `c` in `s`. */
  function Count(s: string, c: char): nat {
    if |s| == 0 then 0 else (if s[0] == c then 1 else 0) + Count(s[1..], c)
  }

  /** A text without `c` holds it zero times. */
  lemma {:induction false} CountAbsent(s: string, c: char)
    requires c !in s
    ensures Count(s, c) == 0
  {
    if |s| > 0 {
      CountAbsent(s[1..], c);
    }
  }

  lemma Count4(a: string, b: string, c: string, d: string, ch: char)
    ensures Count(a + b + c + d, ch) == Count(a, ch) + Count(b, ch) + Count(c, ch) + Count(d, ch)
  {
    CountConcat(a, b, ch);
    CountConcat(a + b, c, ch);
    CountConcat(a + b + c, d, ch);
  }

  /** Fixed text free of `c` around two variable pieces contributes nothing to the count. */
  lemma CountFramed(p1: string, x: string, p2: string, y: string, p3: string, c: char)
    requires c !in p1 && c !in p2 && c !in p3
    ensures Count(p1 + x + p2 + y + p3, c) == Count(x, c) + Count(y, c)
  {
    CountAbsent(p1, c);
    CountAbsent(p2, c);
    CountAbsent(p3, c);
    Count4(p1, x, p2, y, c);
    CountConcat(p1 + x + p2 + y, p3, c);
  }

  /** A suffix free of `c` contributes nothing to the count. */
  lemma CountSuffixFree(x: string, p: string, c: char)
    requires c !in p
    ensures Count(x + p, c) == Count(x, c)
  {
    CountAbsent(p, c);
    CountConcat(x, p, c);
  }

  /** `sep.join(parts)`. */
  function Join(parts: seq<string>, sep: string): string {
    if |parts| == 0 then ""
    else if |parts| == 1 then parts[0]
    else parts[0] + sep + Join(parts[1..], sep)
  }

  lemma {:induction false} CountConcat(a: string, b: string, c: char)
    ensures Count(a + b, c) == Count(a, c) + Count(b, c)
  {
    if |a| > 0 {
      assert (a + b)[1..] == a[1..] + b;
      CountConcat(a[1..], b, c);
    } else {
      assert a + b == b;
    }
  }

  /** Joining with a separator free of `c` adds no occurrence of `c`: when every part holds `c` once
      (`once`) or never, the joined text holds it once per part or never. */
  lemma {:induction false} CountJoin(parts: seq<string>, sep: string, c: char, once: bool)
    requires Count(sep, c) == 0
    requires forall i :: 0 <= i < |parts| ==> Count(parts[i], c) == (if once then 1 else 0)
    ensures Count(Join(parts, sep), c) == (if once then |parts| else 0)
  {
    if |parts| > 1 {
      var tail := parts[1..];
      assert forall i :: 0 <= i < |tail| ==> tail[i] == parts[i + 1];
      CountJoin(tail, sep, c, once);
      CountConcat(parts[0], sep, c);
      CountConcat(parts[0] + sep, Join(tail, sep), c);
    }
  }

  /** The first position of `c` in `s`. */
  function IndexOf(s: string, c: char): (i: nat)
    requires c in s
    ensures i < |s| && s[i] == c && c !in s[..i]
  {
    if s[0] == c then 0
    else
      assert s == [s[0]] + s[1..];
      var j := IndexOf(s[1..], c);
      assert s[..j + 1] == [s[0]] + s[1..][..j];
      j + 1
  }

  /** `IndexOf` is the only position before which `c` does not occur. */
  lemma IndexOfFirst(s: string, c: char, k: nat)
    requires k < |s| && s[k] == c && c !in s[..k]
    ensures IndexOf(s, c) == k
  {
  }

  /** `s.split(sep)` for a separator whose first character the pieces do not hold: cut at each
      occurrence of that character that opens a full separator. */
  function Split(s: string, sep: string): (parts: seq<string>)
    requires |sep| > 0
    ensures |parts| > 0
    decreases |s|
  {
    if sep[0] !in s then [s]
    else
      var i := IndexOf(s, sep[0]);
      if StartsWith(s[i..], sep) then [s[..i]] + Split(s[i + |sep|..], sep) else [s]
  }

  /** One step of `Split`: a piece free of the separator's first character, then the separator. */
  lemma SplitStep(p: string, sep: string, rest: string)
    requires |sep| > 0 && sep[0] !in p
    ensures Split(p + sep + rest, sep) == [p] + Split(rest, sep)
  {
    var s := p + sep + rest;
    var k := |p|;
    assert s[..k] == p;
    IndexOfFirst(s, sep[0], k);
    assert s[k..] == sep + rest;
    assert s[k + |sep|..] == rest;
  }

  /** Splitting a joined list gives the list back, when no element holds the separator's first
      character. */
  lemma {:induction false} SplitJoin(parts: seq<string>, sep: string)
    requires |parts| > 0 && |sep| > 0
    requires forall i :: 0 <= i < |parts| ==> sep[0] !in parts[i]
    ensures Split(Join(parts, sep), sep) == parts
    decreases |parts|
  {
    if |parts| > 1 {
      SplitStep(parts[0], sep, Join(parts[1..], sep));
      SplitJoin(parts[1..], sep);
      assert parts == [parts[0]] + parts[1..];
    }
  }

  function DigitChar(d: int): char
    requires 0 <= d < 10
  {
    ('0' as int + d) as char
  }

  /** `str(n)` for a natural number: its decimal digits, most significant first. */
  function NatToString(n: nat): (s: string)
    ensures |s| > 0
    ensures forall i :: 0 <= i < |s| ==> '0' <= s[i] <= '9'
  {
    if n < 10 then [DigitChar(n)] else NatToString(n / 10) + [DigitChar(n % 10)]
  }

  /** `str(n)` for any Python int. */
  function IntToString(n: int): (s: string)
    ensures |s| > 0
    ensures forall i :: 0 <= i < |s| ==> '0' <= s[i] <= '9' || s[i] == '-'
  {
    if n < 0 then "-" + NatToString(-n) else NatToString(n)
  }

  /** Reads a run of decimal digits, the inverse of NatToString. */
  function ParseNat(s: string): nat
    requires forall i :: 0 <= i < |s| ==> '0' <= s[i] <= '9'
  {
    if |s| == 0 then 0 else ParseNat(s[..|s| - 1]) * 10 + (s[|s| - 1] as int - '0' as int)
  }

  /** Reads an optionally negative decimal numeral, the inverse of IntToString. */
  function ParseInt(s: string): int
    requires |s| > 0
    requires forall i :: 0 <= i < |s| ==> '0' <= s[i] <= '9' || (i == 0 && s[i] == '-')
  {
    if s[0] == '-' then -(ParseNat(s[1..]) as int) else ParseNat(s)
  }

  lemma {:induction false} NatRoundTrip(n: nat)
    ensures ParseNat(NatToString(n)) == n
  {
    if n >= 10 {
      var s := NatToString(n);
      assert s[..|s| - 1] == NatToString(n / 10);
      NatRoundTrip(n / 10);
    }
  }

  /** The decimal rendering of an integer reads back as the same integer. */
  lemma IntRoundTrip(n: int)
    ensures ParseInt(IntToString(n)) == n
  {
    if n < 0 {
      assert ("-" + NatToString(-n))[1..] == NatToString(-n);
      NatRoundTrip(-n);
    } else {
      NatRoundTrip(n);
    }
  }

  /** A decimal rendering holds no character outside digits and the minus sign. */
  lemma IntToStringCount(n: int, c: char)
    requires !('0' <= c <= '9') && c != '-'
    ensures Count(IntToString(n), c) == 0
  {
    CountAbsent(IntToString(n), c);
  }
}

=== FILE: tools.dfy ===
/** The ten tool bodies of `MCPTools`. The SQLite engine is an oracle: given a database path and a
    statement it returns a cursor or raises, and the catalog, schema and analysis queries whose row
    layout is engine-specific are oracles of their own. Each tool reports the database accesses it
    made as a trace, so "before any database access" and "commits" can be stated. */
module Tools {
  import opened Basics
  import opened Json
  import opened Text
  import opened Models
  import opened Database
  import opened Statements

  /** `max_query_time` and `max_result_rows` of the tools object. */
  datatype Limits = Limits(maxQueryTime: int, maxResultRows: int)

  /** `MCPTools(db_manager)` with its default limits. */
  function DefaultLimits(): (l: Limits)
    ensures l.maxQueryTime == 60 && l.maxResultRows == 10000
  {
    Limits(60, 10000)
  }

  /** What `cursor.execute` leaves behind: the fetched rows (as `dict(row)`), `rowcount` and `lastrowid`. */
  datatype Cursor = Cursor(rows: seq<Dict>, rowCount: int, lastRowId: Json)

  /** One row of `PRAGMA table_info`, reduced to the column name and declared type. */
  datatype Column = Column(name: string, typ: string)

  /** The three `PRAGMA` listings `get_schema` returns, already shaped into dictionaries. */
  datatype Schema = Schema(columns: seq<Json>, foreignKeys: seq<Json>, indexes: seq<Json>)

  /** The row count, columns, sample rows and numeric statistics `analyze_table` returns. */
  datatype Analysis = Analysis(rowCount: Json, columns: seq<Json>, sample: seq<Dict>, statistics: Dict)

  datatype Engine = Engine(
    fs: FileSystem,
    connect: string -> Option<Exc>,                      // `sqlite3.connect` plus the connection pragmas
    run: (string, Statement) -> Result<Cursor, Exc>,     // `cursor.execute` then `fetchall`
    tableNames: string -> Result<seq<string>, Exc>,      // the `sqlite_master` table listing
    columns: (string, string) -> Result<seq<Column>, Exc>,  // `PRAGMA table_info(table)`
    catalog: string -> Result<seq<Json>, Exc>,           // the `get_tables` listing
    schema: (string, string) -> Result<Schema, Exc>,
    analysis: (string, string) -> Result<Analysis, Exc>)

  /** A database access, in the order the tool makes it. */
  datatype Event =
    | Open(path: string)          // a connection is attempted on this resolved path
    | Execute(stmt: Statement)    // a statement is sent to the engine
    | Commit
    | Describe(table: string)     // a catalog, schema or analysis oracle is consulted

  /** The arguments a tool reads. A missing or falsy argument is the empty value of its type, which
      is how the tools treat `None`, `""`, `[]`, `{}` and `0` alike; `limit` and `offset` are 0 when absent. */
  datatype Arguments = Arguments(
    dbPath: string, sql: string, params: seq<Json>, table: string, data: Dict, where: Dict,
    limit: int, offset: int, orderBy: string, searchTerm: string, tables: seq<string>)

  function NoArguments(): Arguments {
    Arguments("", "", [], "", [], [], 0, 0, "", "", [])
  }

  /** The ordered `results` dictionary of `search_data`: table name to its matching rows. */
  type Results = seq<(string, seq<Dict>)>

  /** The dictionary each tool returns on success. */
  datatype Outcome =
    | Connected(message: string, databasePath: string, tablesFound: nat, tables: seq<string>)
    | QueryRows(rows: seq<Dict>, rowCount: nat, query: string)
    | QueryWrite(affectedRows: int, lastRowId: Json, query: string)
    | TableList(entries: seq<Json>, count: nat)
    | TableSchema(table: string, schema: Schema)
    | Created(insertedId: Json, affectedRows: int, table: string, data: Dict)
    | ReadRows(rows: seq<Dict>, rowCount: nat, table: string, query: string)
    | Updated(affectedRows: int, table: string, data: Dict, where: Dict)
    | Deleted(affectedRows: int, table: string, where: Dict)
    | Analyzed(table: string, analysis: Analysis)
    | Found(searchTerm: string, results: Results, matchesFound: nat)

  /** A tool's effect: the database manager afterwards, what it returned or raised, and its accesses. */
  datatype Run = Run(manager: DbManager, result: Result<Outcome, Exc>, trace: seq<Event>)

  /** The `MCPError(-32603, prefix + str(e))` every tool raises for a failure inside its `try`. */
  function Wrap(prefix: string, cause: Exc): (x: Exc)
    ensures x.McpError? && x.code == -32603 && x.data == JNull
    ensures StartsWith(x.message, prefix) && x.message[|prefix|..] == cause.Str()
  {
    McpError(-32603, prefix + cause.Str())
  }

  function Invalid(message: string): (x: Exc)
    ensures x.McpError? && x.code == -32602 && x.message == message
  {
    McpError(-32602, message)
  }

  /** The outcome of `get_connection`: the path it opened, or what it raised, with the accesses made. */
  datatype Opened = Opened(path: Result<string, Exc>, trace: seq<Event>)

  /** `get_connection(db_path)`: choose the path, require the file, then open the engine on it. */
  function OpenConnection(e: Engine, m: DbManager, dbPath: string): (o: Opened)
    ensures GetConnection(m, dbPath, e.fs).Err? ==> o == Opened(GetConnection(m, dbPath, e.fs), [])
    ensures GetConnection(m, dbPath, e.fs).Ok? ==> o.trace == [Open(GetConnection(m, dbPath, e.fs).value)]
    ensures o.path.Ok? <==> GetConnection(m, dbPath, e.fs).Ok? && e.connect(GetConnection(m, dbPath, e.fs).value).None?
    ensures o.path.Ok? ==> o.path == GetConnection(m, dbPath, e.fs)
  {
    match GetConnection(m, dbPath, e.fs)
    case Err(x) => Opened(Err(x), [])
    case Ok(path) =>
      match e.connect(path)
      case Some(x) => Opened(Err(x), [Open(path)])
      case None => Opened(Ok(path), [Open(path)])
  }

  /** The cursor the engine returns for `stmt` once the connection is open, if both succeed. */
  function Fetch(e: Engine, m: DbManager, dbPath: string, stmt: Statement): Option<Cursor> {
    match OpenConnection(e, m, dbPath).path
    case Err(_) => None
    case Ok(path) => if e.run(path, stmt).Ok? then Some(e.run(path, stmt).value) else None
  }

  /** An `MCPError(-32603, ...)` without data whose message starts with the tool's failure prefix. */
  predicate IsWrapped(x: Exc, prefix: string) {
    x.McpError? && x.code == -32603 && x.data == JNull && StartsWith(x.message, prefix)
  }

  // ---------------------------------------------------------------- the structured writers

  /** The shared body of `create`, `update` and `delete` once the arguments are accepted: open,
      execute one statement, commit, and wrap any failure under the tool's prefix. */
  function WriteRun(e: Engine, m: DbManager, dbPath: string, stmt: Statement, failure: string,
                    done: Cursor -> Outcome): (r: Run)
    ensures r.manager == m
    ensures Commit in r.trace <==> r.result.Ok?
    ensures forall i :: 0 <= i < |r.trace| && r.trace[i].Execute? ==> r.trace[i].stmt == stmt
    ensures r.result.Err? ==> IsWrapped(r.result.error, failure)
    ensures r.result.Ok? <==> Fetch(e, m, dbPath, stmt).Some?
    ensures r.result.Ok? ==> r.result.value == done(Fetch(e, m, dbPath, stmt).value)
  {
    var o := OpenConnection(e, m, dbPath);
    match o.path
    case Err(x) => Run(m, Err(Wrap(failure, x)), o.trace)
    case Ok(path) =>
      match e.run(path, stmt)
      case Err(x) => Run(m, Err(Wrap(failure, x)), o.trace + [Execute(stmt)])
      case Ok(c) => Run(m, Ok(done(c)), o.trace + [Execute(stmt), Commit])
  }

  /** `_tool_create`: refuses a missing table or empty data before touching the database, otherwise
      inserts one row binding the values in the data's key order. */
  function ToolCreate(e: Engine, m: DbManager, a: Arguments): (r: Run)
    ensures r.manager == m
    ensures a.table == "" || |a.data| == 0 ==>
              r.result == Err(Invalid("table and data are required")) && r.trace == []
    ensures forall i :: 0 <= i < |r.trace| && r.trace[i].Execute? ==> r.trace[i].stmt == Insert(a.table, a.data)
    ensures Commit in r.trace <==> r.result.Ok?
    ensures a.table != "" && |a.data| > 0 ==> (r.result.Ok? <==> Fetch(e, m, a.dbPath, Insert(a.table, a.data)).Some?)
    ensures r.result.Ok? ==>
              Fetch(e, m, a.dbPath, Insert(a.table, a.data)).Some? &&
              var c := Fetch(e, m, a.dbPath, Insert(a.table, a.data)).value;
              r.result.value == Created(c.lastRowId, c.rowCount, a.table, a.data)
    ensures r.result.Err? && a.table != "" && |a.data| > 0 ==>
              IsWrapped(r.result.error, "Failed to create record in " + a.table + ": ")
  {
    if a.table == "" || |a.data| == 0 then Run(m, Err(Invalid("table and data are required")), [])
    else
      WriteRun(e, m, a.dbPath, Insert(a.table, a.data), "Failed to create record in " + a.table + ": ",
               (c: Cursor) => Created(c.lastRowId, c.rowCount, a.table, a.data))
  }

  /** `_tool_update`: needs a table, data and a where map; binds data values before where values. */
  function ToolUpdate(e: Engine, m: DbManager, a: Arguments): (r: Run)
    ensures r.manager == m
    ensures a.table == "" || |a.data| == 0 || |a.where| == 0 ==>
              r.result == Err(Invalid("table, data, and where are required")) && r.trace == []
    ensures forall i :: 0 <= i < |r.trace| && r.trace[i].Execute? ==>
              r.trace[i].stmt == Update(a.table, a.data, a.where)
    ensures Commit in r.trace <==> r.result.Ok?
    ensures a.table != "" && |a.data| > 0 && |a.where| > 0 ==>
              (r.result.Ok? <==> Fetch(e, m, a.dbPath, Update(a.table, a.data, a.where)).Some?)
    ensures r.result.Ok? ==>
              Fetch(e, m, a.dbPath, Update(a.table, a.data, a.where)).Some? &&
              var c := Fetch(e, m, a.dbPath, Update(a.table, a.data, a.where)).value;
              r.result.value == Updated(c.rowCount, a.table, a.data, a.where)
    ensures r.result.Err? && a.table != "" && |a.data| > 0 && |a.where| > 0 ==>
              IsWrapped(r.result.error, "Failed to update " + a.table + ": ")
  {
    if a.table == "" || |a.data| == 0 || |a.where| == 0 then
      Run(m, Err(Invalid("table, data, and where are required")), [])
    else
      WriteRun(e, m, a.dbPath, Update(a.table, a.data, a.where), "Failed to update " + a.table + ": ",
               (c: Cursor) => Updated(c.rowCount, a.table, a.data, a.where))
  }

  /** `_tool_delete`: never runs without a where map, so it cannot empty a whole table. */
  function ToolDelete(e: Engine, m: DbManager, a: Arguments): (r: Run)
    ensures r.manager == m
    ensures a.table == "" || |a.where| == 0 ==>
              r.result == Err(Invalid("table and where are required")) && r.trace == []
    ensures forall i :: 0 <= i < |r.trace| && r.trace[i].Execute? ==> r.trace[i].stmt == Delete(a.table, a.where)
    ensures Commit in r.trace <==> r.result.Ok?
    ensures a.table != "" && |a.where| > 0 ==> (r.result.Ok? <==> Fetch(e, m, a.dbPath, Delete(a.table, a.where)).Some?)
    ensures r.result.Ok? ==>
              Fetch(e, m, a.dbPath, Delete(a.table, a.where)).Some? &&
              var c := Fetch(e, m, a.dbPath, Delete(a.table, a.where)).value;
              r.result.value == Deleted(c.rowCount, a.table, a.where)
    ensures r.result.Err? && a.table != "" && |a.where| > 0 ==>
              IsWrapped(r.result.error, "Failed to delete from " + a.table + ": ")
  {
    if a.table == "" || |a.where| == 0 then Run(m, Err(Invalid("table and where are required")), [])
    else
      WriteRun(e, m, a.dbPath, Delete(a.table, a.where), "Failed to delete from " + a.table + ": ",
               (c: Cursor) => Deleted(c.rowCount, a.table, a.where))
  }

  // ---------------------------------------------------------------- read

  /** `_tool_read`: runs the built `SELECT` and returns every fetched row, never committing. */
  function ToolRead(e: Engine, m: DbManager, a: Arguments): (r: Run)
    ensures r.manager == m && Commit !in r.trace
    ensures a.table == "" ==> r.result == Err(Invalid("table is required")) && r.trace == []
    ensures forall i :: 0 <= i < |r.trace| && r.trace[i].Execute? ==>
              r.trace[i].stmt == Select(a.table, a.where, a.orderBy, a.limit, a.offset)
    ensures a.table != "" ==>
              (r.result.Ok? <==> Fetch(e, m, a.dbPath, Select(a.table, a.where, a.orderBy, a.limit, a.offset)).Some?)
    ensures r.result.Ok? ==>
              var s := Select(a.table, a.where, a.orderBy, a.limit, a.offset);
              Fetch(e, m, a.dbPath, s).Some? &&
              var rows := Fetch(e, m, a.dbPath, s).value.rows;
              r.result.value == ReadRows(rows, |rows|, a.table, s.sql)
    ensures r.result.Err? && a.table != "" ==>
              IsWrapped(r.result.error, "Failed to read from " + a.table + ": ")
  {
    if a.table == "" then Run(m, Err(Invalid("table is required")), [])
    else
      var s := Select(a.table, a.where, a.orderBy, a.limit, a.offset);
      var failure := "Failed to read from " + a.table + ": ";
      var o := OpenConnection(e, m, a.dbPath);
      match o.path
      case Err(x) => Run(m, Err(Wrap(failure, x)), o.trace)
      case Ok(path) =>
        match e.run(path, s)
        case Err(x) => Run(m, Err(Wrap(failure, x)), o.trace + [Execute(s)])
        case Ok(c) => Run(m, Ok(ReadRows(c.rows, |c.rows|, a.table, s.sql)), o.trace + [Execute(s)])
  }

  // ---------------------------------------------------------------- query

  /** `sql.strip().upper().startswith('SELECT')`: the only statements whose rows are returned. */
  predicate IsRead(sql: string) {
    StartsWith(Upper(Strip(sql)), "SELECT")
  }

  /** Python's `rows[:n]`: a negative bound counts from the end. */
  function SliceTo<T>(rows: seq<T>, n: int): (r: seq<T>)
    ensures r <= rows
    ensures |r| == (if n >= 0 then Min(n, |rows|) else Max(0, |rows| + n))
  {
    if n >= 0 then rows[..Min(n, |rows|)] else rows[..Max(0, |rows| + n)]
  }

  /** `if len(rows) > max_result_rows: rows = rows[:max_result_rows]`. */
  function Truncate<T>(rows: seq<T>, maxRows: int): (r: seq<T>)
    ensures r <= rows
    ensures maxRows >= 0 ==> |r| == Min(|rows|, maxRows)
  {
    if |rows| > maxRows then SliceTo(rows, maxRows) else rows
  }

  /** How `_tool_query` reports a failure after the filter: an `OperationalError` whose lower-cased text
      mentions "interrupted" is the deadline, any other `OperationalError` an execution failure, and
      every other exception (no path, missing file) a generic failure. */
  function QueryFailure(l: Limits, x: Exc): (f: Exc)
    ensures f.McpError? && f.code == -32603 && f.data == JNull
    ensures x.PyError? && x.kind == OperationalError && Contains(Lower(x.message), "interrupted") ==>
              f.message == "Query timeout after " + IntToString(l.maxQueryTime) + " seconds"
    ensures x.PyError? && x.kind == OperationalError && !Contains(Lower(x.message), "interrupted") ==>
              f == Wrap("SQL execution failed: ", x)
    ensures !(x.PyError? && x.kind == OperationalError) ==> f == Wrap("Query execution failed: ", x)
  {
    if x.PyError? && x.kind == OperationalError then
      if Contains(Lower(x.message), "interrupted") then
        McpError(-32603, "Query timeout after " + IntToString(l.maxQueryTime) + " seconds")
      else Wrap("SQL execution failed: ", x)
    else Wrap("Query execution failed: ", x)
  }

  /** The dictionary `_tool_query` returns for an executed statement: the fetched rows of a read, cut
      to `max_result_rows`, or the write's row count and last row id. */
  function QueryOutcome(l: Limits, sql: string, c: Cursor): (o: Outcome)
    ensures o.QueryRows? <==> IsRead(sql)
    ensures o.QueryRows? ==> o.rows == Truncate(c.rows, l.maxResultRows) && o.rowCount == |o.rows| && o.query == sql
    ensures o.QueryWrite? ==> o.affectedRows == c.rowCount && o.lastRowId == c.lastRowId && o.query == sql
  {
    if IsRead(sql) then
      var rows := Truncate(c.rows, l.maxResultRows);
      QueryRows(rows, |rows|, sql)
    else QueryWrite(c.rowCount, c.lastRowId, sql)
  }

  /** The part of `_tool_query` after the checks: execute the text as given on the chosen database,
      committing everything that is not a read. */
  function RunQuery(e: Engine, m: DbManager, l: Limits, a: Arguments): (r: Run)
    ensures r.manager == m
    ensures r.result.Ok? <==> Fetch(e, m, a.dbPath, Statement(a.sql, a.params)).Some?
    ensures r.result.Ok? ==> r.result.value == QueryOutcome(l, a.sql, Fetch(e, m, a.dbPath, Statement(a.sql, a.params)).value)
  {
    var s := Statement(a.sql, a.params);
    var o := OpenConnection(e, m, a.dbPath);
    match o.path
    case Err(x) => Run(m, Err(QueryFailure(l, x)), o.trace)
    case Ok(path) =>
      match e.run(path, s)
      case Err(x) => Run(m, Err(QueryFailure(l, x)), o.trace + [Execute(s)])
      case Ok(c) => Run(m, Ok(QueryOutcome(l, a.sql, c)), o.trace + [Execute(s)] + (if IsRead(a.sql) then [] else [Commit]))
  }

  /** The query sends exactly the caller's text and parameters, and commits exactly when it
      succeeded on a statement that is not a read. */
  lemma QueryCommitsOnlyWrites(e: Engine, m: DbManager, l: Limits, a: Arguments)
    ensures var r := RunQuery(e, m, l, a);
            forall i :: 0 <= i < |r.trace| && r.trace[i].Execute? ==> r.trace[i].stmt == Statement(a.sql, a.params)
    ensures Commit in RunQuery(e, m, l, a).trace <==> RunQuery(e, m, l, a).result.Ok? && !IsRead(a.sql)
  {
  }

  /** `_tool_query`: an empty or filter-rejected text fails before any connection is opened. */
  function ToolQuery(e: Engine, m: DbManager, l: Limits, a: Arguments): (r: Run)
    ensures a.sql == "" ==> r == Run(m, Err(Invalid("sql is required")), [])
    ensures a.sql != "" && !ValidateSqlQuery(a.sql) ==>
              r == Run(m, Err(McpError(-32603, "Potentially dangerous SQL query rejected")), [])
    ensures a.sql != "" && ValidateSqlQuery(a.sql) ==> r == RunQuery(e, m, l, a)
  {
    if a.sql == "" then Run(m, Err(Invalid("sql is required")), [])
    else if !ValidateSqlQuery(a.sql) then
      Run(m, Err(McpError(-32603, "Potentially dangerous SQL query rejected")), [])
    else RunQuery(e, m, l, a)
  }

  /** Every failure after the checks is classified by `QueryFailure`: an engine error mentioning
      "interrupted" is reported as the deadline, naming the configured seconds. */
  lemma QueryFailureClassified(e: Engine, m: DbManager, l: Limits, a: Arguments)
    ensures var r := RunQuery(e, m, l, a);
            r.result.Err? ==> exists x :: r.result.error == QueryFailure(l, x)
    ensures var o := OpenConnection(e, m, a.dbPath);
            var r := RunQuery(e, m, l, a);
            o.path.Ok? && e.run(o.path.value, Statement(a.sql, a.params)).Err? ==>
              r.result == Err(QueryFailure(l, e.run(o.path.value, Statement(a.sql, a.params)).error))
  {
  }

  /** Read detection ignores letter case. */
  lemma IsReadCaseInsensitive(s: string, t: string)
    requires Upper(s) == Upper(t)
    ensures IsRead(s) <==> IsRead(t)
  {
    StripUpper(s);
    StripUpper(t);
  }

  /** Read detection ignores leading whitespace. */
  lemma IsReadPadding(pad: string, sql: string)
    requires forall i :: 0 <= i < |pad| ==> IsSpace(pad[i])
    ensures IsRead(pad + sql) <==> IsRead(sql)
  {
    StripStartPadding(pad, sql);
  }

  /** A read returns a prefix of the fetched rows, no more than the limit, and all of them when they fit. */
  lemma TruncateMeaning<T>(rows: seq<T>, maxRows: nat)
    ensures |Truncate(rows, maxRows)| <= maxRows
    ensures Truncate(rows, maxRows) == rows[..|Truncate(rows, maxRows)|]
    ensures |rows| <= maxRows ==> Truncate(rows, maxRows) == rows
    ensures |rows| > maxRows ==> |Truncate(rows, maxRows)| == maxRows
  {
  }

  // ---------------------------------------------------------------- connect_database

  /** `_tool_connect_database`: records the database, then lists its tables, reporting the full count
      but at most the first ten names. The new current path survives a later failure. */
  function ToolConnectDatabase(e: Engine, m: DbManager, a: Arguments): (r: Run)
    ensures a.dbPath == "" ==> r == Run(m, Err(Invalid("db_path is required")), [])
    ensures a.dbPath != "" ==> r.manager == SetDatabase(m, a.dbPath, e.fs).manager
    ensures Commit !in r.trace
    ensures a.dbPath != "" ==>
              var path := e.fs.resolve(a.dbPath);
              (r.result.Ok? <==> e.fs.fileExists(path) && e.fs.isReadable(path) &&
                                 e.connect(path).None? && e.tableNames(path).Ok?)
    ensures r.result.Ok? ==>
              r.manager.currentDbPath == Some(e.fs.resolve(a.dbPath)) &&
              var path := e.fs.resolve(a.dbPath);
              e.tableNames(path).Ok? &&
              var names := e.tableNames(path).value;
              r.result.value == Connected("Connected to database: " + a.dbPath, path, |names|, names[..Min(10, |names|)])
    ensures r.result.Err? && a.dbPath != "" ==>
              IsWrapped(r.result.error, "Failed to connect to database: ")
  {
    if a.dbPath == "" then Run(m, Err(Invalid("db_path is required")), [])
    else
      var failure := "Failed to connect to database: ";
      var setting := SetDatabase(m, a.dbPath, e.fs);
      if setting.error.Some? then Run(m, Err(Wrap(failure, setting.error.value)), [])
      else
        var m2 := setting.manager;
        var o := OpenConnection(e, m2, "");
        match o.path
        case Err(x) => Run(m2, Err(Wrap(failure, x)), o.trace)
        case Ok(path) =>
          var listing := Statement(ListTablesSql, []);
          match e.tableNames(path)
          case Err(x) => Run(m2, Err(Wrap(failure, x)), o.trace + [Execute(listing)])
          case Ok(names) =>
            Run(m2, Ok(Connected("Connected to database: " + a.dbPath, m2.currentDbPath.value, |names|,
                                 names[..Min(10, |names|)])),
                o.trace + [Execute(listing)])
  }

  // ---------------------------------------------------------------- catalog tools

  /** `_tool_get_tables`: every table and view, with their count. */
  function ToolGetTables(e: Engine, m: DbManager, a: Arguments): (r: Run)
    ensures r.manager == m && Commit !in r.trace
    ensures r.result.Ok? <==> OpenConnection(e, m, a.dbPath).path.Ok? && e.catalog(OpenConnection(e, m, a.dbPath).path.value).Ok?
    ensures r.result.Ok? ==>
              OpenConnection(e, m, a.dbPath).path.Ok? &&
              var path := OpenConnection(e, m, a.dbPath).path.value;
              e.catalog(path).Ok? &&
              r.result.value == TableList(e.catalog(path).value, |e.catalog(path).value|)
    ensures r.result.Err? ==> IsWrapped(r.result.error, "Failed to get tables: ")
  {
    var failure := "Failed to get tables: ";
    var o := OpenConnection(e, m, a.dbPath);
    match o.path
    case Err(x) => Run(m, Err(Wrap(failure, x)), o.trace)
    case Ok(path) =>
      match e.catalog(path)
      case Err(x) => Run(m, Err(Wrap(failure, x)), o.trace + [Describe("")])
      case Ok(entries) => Run(m, Ok(TableList(entries, |entries|)), o.trace + [Describe("")])
  }

  /** `_tool_get_schema`: columns, foreign keys and indexes of one named table. */
  function ToolGetSchema(e: Engine, m: DbManager, a: Arguments): (r: Run)
    ensures r.manager == m && Commit !in r.trace
    ensures a.table == "" ==> r.result == Err(Invalid("table is required")) && r.trace == []
    ensures a.table != "" ==>
              (r.result.Ok? <==> OpenConnection(e, m, a.dbPath).path.Ok? &&
                                 e.schema(OpenConnection(e, m, a.dbPath).path.value, a.table).Ok?)
    ensures r.result.Ok? ==>
              OpenConnection(e, m, a.dbPath).path.Ok? &&
              var path := OpenConnection(e, m, a.dbPath).path.value;
              e.schema(path, a.table).Ok? &&
              r.result.value == TableSchema(a.table, e.schema(path, a.table).value)
    ensures r.result.Err? && a.table != "" ==>
              IsWrapped(r.result.error, "Failed to get schema for table " + a.table + ": ")
  {
    if a.table == "" then Run(m, Err(Invalid("table is required")), [])
    else
      var failure := "Failed to get schema for table " + a.table + ": ";
      var o := OpenConnection(e, m, a.dbPath);
      match o.path
      case Err(x) => Run(m, Err(Wrap(failure, x)), o.trace)
      case Ok(path) =>
        match e.schema(path, a.table)
        case Err(x) => Run(m, Err(Wrap(failure, x)), o.trace + [Describe(a.table)])
        case Ok(s) => Run(m, Ok(TableSchema(a.table, s)), o.trace + [Describe(a.table)])
  }

  /** `_tool_analyze_table`: row count, columns, a sample and numeric statistics of one named table. */
  function ToolAnalyzeTable(e: Engine, m: DbManager, a: Arguments): (r: Run)
    ensures r.manager == m && Commit !in r.trace
    ensures a.table == "" ==> r.result == Err(Invalid("table is required")) && r.trace == []
    ensures a.table != "" ==>
              (r.result.Ok? <==> OpenConnection(e, m, a.dbPath).path.Ok? &&
                                 e.analysis(OpenConnection(e, m, a.dbPath).path.value, a.table).Ok?)
    ensures r.result.Ok? ==>
              OpenConnection(e, m, a.dbPath).path.Ok? &&
              var path := OpenConnection(e, m, a.dbPath).path.value;
              e.analysis(path, a.table).Ok? &&
              r.result.value == Analyzed(a.table, e.analysis(path, a.table).value)
    ensures r.result.Err? && a.table != "" ==>
              IsWrapped(r.result.error, "Failed to analyze table " + a.table + ": ")
  {
    if a.table == "" then Run(m, Err(Invalid("table is required")), [])
    else
      var failure := "Failed to analyze table " + a.table + ": ";
      var o := OpenConnection(e, m, a.dbPath);
      match o.path
      case Err(x) => Run(m, Err(Wrap(failure, x)), o.trace)
      case Ok(path) =>
        match e.analysis(path, a.table)
        case Err(x) => Run(m, Err(Wrap(failure, x)), o.trace + [Describe(a.table)])
        case Ok(an) => Run(m, Ok(Analyzed(a.table, an)), o.trace + [Describe(a.table)])
  }

  // ---------------------------------------------------------------- search_data

  /** `row[2].upper() in ['TEXT', 'VARCHAR', 'CHAR']`: an exact match, so `VARCHAR(20)` is not text. */
  predicate IsTextType(typ: string) {
    Upper(typ) in ["TEXT", "VARCHAR", "CHAR"]
  }

  /** The names of the text columns, in table order. */
  function TextColumns(cols: seq<Column>): (names: seq<string>)
    ensures |names| <= |cols|
    ensures forall i :: 0 <= i < |cols| && IsTextType(cols[i].typ) ==> cols[i].name in names
    ensures forall n :: n in names ==> exists i :: 0 <= i < |cols| && cols[i].name == n && IsTextType(cols[i].typ)
  {
    if |cols| == 0 then []
    else
      var rest := TextColumns(cols[1..]);
      var names := (if IsTextType(cols[0].typ) then [cols[0].name] else []) + rest;
      assert forall n :: n in names ==> exists i :: 0 <= i < |cols| && cols[i].name == n && IsTextType(cols[i].typ) by {
        forall n | n in names
          ensures exists i :: 0 <= i < |cols| && cols[i].name == n && IsTextType(cols[i].typ)
        {
          if n in rest {
            var i :| 0 <= i < |cols[1..]| && cols[1..][i].name == n && IsTextType(cols[1..][i].typ);
            assert cols[i + 1] == cols[1..][i];
          }
        }
      }
      assert forall i :: 0 <= i < |cols| && IsTextType(cols[i].typ) ==> cols[i].name in names by {
        forall i | 0 <= i < |cols| && IsTextType(cols[i].typ)
          ensures cols[i].name in names
        {
          if i > 0 {
            assert cols[1..][i - 1] == cols[i];
          }
        }
      }
      names
  }

  /** The text columns of a concatenation are those of each part, in turn: the selection keeps the
      table's column order and repeats nothing. */
  lemma {:induction false} TextColumnsInOrder(a: seq<Column>, b: seq<Column>)
    ensures TextColumns(a + b) == TextColumns(a) + TextColumns(b)
    decreases |a|
  {
    if |a| == 0 {
      assert a + b == b;
    } else {
      assert (a + b)[1..] == a[1..] + b;
      TextColumnsInOrder(a[1..], b);
    }
  }

  /** The rows one table contributes to the search: none when its columns cannot be read, it has no
      text column, the search fails, or nothing matches. */
  function TableHits(e: Engine, path: string, term: string, table: string): Option<seq<Dict>> {
    match e.columns(path, table)
    case Err(_) => None
    case Ok(cols) =>
      var text := TextColumns(cols);
      if |text| == 0 then None
      else
        match e.run(path, Search(table, text, term))
        case Err(_) => None
        case Ok(c) => if |c.rows| == 0 then None else Some(c.rows)
  }

  /** The statements the search sends for one table. */
  function TableTrace(e: Engine, path: string, term: string, table: string): seq<Event> {
    var info := Execute(Statement(TableInfoSql(table), []));
    match e.columns(path, table)
    case Err(_) => [info]
    case Ok(cols) =>
      var text := TextColumns(cols);
      if |text| == 0 then [info] else [info, Execute(Search(table, text, term))]
  }

  function Names(res: Results): (ns: seq<string>)
    ensures |ns| == |res| && forall i :: 0 <= i < |res| ==> ns[i] == res[i].0
  {
    seq(|res|, i requires 0 <= i < |res| => res[i].0)
  }

  /** `results[table] = rows`: replaces the value in place when the key exists, else appends. */
  function Put(res: Results, table: string, rows: seq<Dict>): (r: Results)
    ensures table in Names(res) ==> Names(r) == Names(res)
    ensures table !in Names(res) ==> Names(r) == Names(res) + [table]
    ensures forall i :: 0 <= i < |r| ==> r[i].1 == (if r[i].0 == table then rows else res[i].1)
  {
    if table in Names(res) then seq(|res|, i requires 0 <= i < |res| => if res[i].0 == table then (table, rows) else res[i])
    else res + [(table, rows)]
  }

  /** The per-table loop of `_tool_search_data`, as the results and the accesses after the given tables. */
  function SearchTables(e: Engine, path: string, term: string, tables: seq<string>): (r: (Results, seq<Event>))
    ensures forall t :: t in Names(r.0) <==> t in tables && TableHits(e, path, term, t).Some?
    ensures forall i :: 0 <= i < |r.0| ==> TableHits(e, path, term, r.0[i].0) == Some(r.0[i].1)
    ensures forall i, j :: 0 <= i < j < |r.0| ==> r.0[i].0 != r.0[j].0
    ensures Commit !in r.1
    decreases |tables|
  {
    if |tables| == 0 then ([], [])
    else
      var before := SearchTables(e, path, term, tables[..|tables| - 1]);
      var t := tables[|tables| - 1];
      assert tables == tables[..|tables| - 1] + [t];
      var hits := TableHits(e, path, term, t);
      var res := if hits.Some? then Put(before.0, t, hits.value) else before.0;
      (res, before.1 + TableTrace(e, path, term, t))
  }

  /** `sum(len(matches) for matches in results.values())`. */
  function MatchCount(res: Results): nat {
    if |res| == 0 then 0 else |res[0].1| + MatchCount(res[1..])
  }

  /** `_tool_search_data`: searches the named tables, or every table when none is named. */
  function ToolSearchData(e: Engine, m: DbManager, a: Arguments): (r: Run)
    ensures r.manager == m && Commit !in r.trace
    ensures a.searchTerm == "" ==> r.result == Err(Invalid("search_term is required")) && r.trace == []
    ensures r.result.Ok? ==>
              OpenConnection(e, m, a.dbPath).path.Ok? &&
              var path := OpenConnection(e, m, a.dbPath).path.value;
              (|a.tables| == 0 ==> e.tableNames(path).Ok?) &&
              var tables := if |a.tables| == 0 then e.tableNames(path).value else a.tables;
              r.result.value.Found? && r.result.value.searchTerm == a.searchTerm &&
              (forall t :: t in Names(r.result.value.results) <==> t in tables && TableHits(e, path, a.searchTerm, t).Some?) &&
              (forall i :: 0 <= i < |r.result.value.results| ==>
                 TableHits(e, path, a.searchTerm, r.result.value.results[i].0) == Some(r.result.value.results[i].1)) &&
              r.result.value.matchesFound == MatchCount(r.result.value.results)
    ensures a.searchTerm != "" ==>
              (r.result.Ok? <==> OpenConnection(e, m, a.dbPath).path.Ok? &&
                                 (|a.tables| > 0 || e.tableNames(OpenConnection(e, m, a.dbPath).path.value).Ok?))
    ensures r.result.Err? && a.searchTerm != "" ==>
              IsWrapped(r.result.error, "Failed to search data: ")
  {
    if a.searchTerm == "" then Run(m, Err(Invalid("search_term is required")), [])
    else
      var failure := "Failed to search data: ";
      var o := OpenConnection(e, m, a.dbPath);
      match o.path
      case Err(x) => Run(m, Err(Wrap(failure, x)), o.trace)
      case Ok(path) =>
        var listing := if |a.tables| == 0 then [Execute(Statement(ListTablesSql, []))] else [];
        var tables := if |a.tables| == 0 then e.tableNames(path) else Ok(a.tables);
        match tables
        case Err(x) => Run(m, Err(Wrap(failure, x)), o.trace + listing)
        case Ok(ts) =>
          var (res, trace) := SearchTables(e, path, a.searchTerm, ts);
          Run(m, Ok(Found(a.searchTerm, res, MatchCount(res))), o.trace + listing + trace)
  }

  /** A search binds the term wrapped in `%` once per text column and never touches the text itself. */
  lemma SearchBindsTerm(e: Engine, path: string, term: string, table: string, cols: seq<Column>)
    requires e.columns(path, table) == Ok(cols) && |TextColumns(cols)| > 0
    ensures var s := Search(table, TextColumns(cols), term);
            TableTrace(e, path, term, table)[1] == Execute(s) &&
            |s.binds| == |TextColumns(cols)| &&
            forall i :: 0 <= i < |s.binds| ==> s.binds[i] == JString("%" + term + "%")
  {
  }
}
